=== FILE: README.md ===
# ETWriter: pysilfont's XML pretty printer, in Dafny

This project models the serializer at the heart of pysilfont's `genlib`:
`ETWriter.serialize_xml`, the escaping helper `_protect` with its two tables
`_elementprotect` and `_attribprotect`, and `makeAttribOrder`, which builds the
rank map that orders attributes.

`serialize_xml` walks an ElementTree element depth first and writes each element
as a fixed layout:
- its `.comments` lines;
- the indented open tag, with its attributes sorted by configured rank and then
  by name, leaving out dot-prefixed metadata;
- either `/>`, or `>`, the text (escaped, or in a CDATA section for configured
  tags), the children one indent step deeper, and the close tag;
- the escaped tail, a newline, and the `.commentsafter` lines.

The top-level call first writes the XML declaration and, when the root has
`.doctype`, a DOCTYPE line.

Modules, one per file:

- `Wrappers` (`wrappers.dfy`): `Option` and `Result`.
- `Strings` (`strings.dfy`): Python 2's `strip`, `split` on one character,
  `replace` of one character and `join`, each related to an independent
  partner (split/join round trips, replace as join-of-split).
- `Escape` (`escape.dfy`): the two tables, `_protect` as a single left-to-right
  substitution pass, and entity decoding as its inverse.
- `AttribOrder` (`attriborder.dfy`): `makeAttribOrder`, the comparator
  `cmp(rank) or cmp(name)` with rank default 999, an insertion sort proved
  sorted and a permutation, and the filtering of metadata names.
- `Tree` (`tree.dfy`): the element (`tag`, attribute dictionary as (name, value)
  pairs, `text`, `tail`, children) and dictionary lookup.
- `Writer` (`writer.dfy`): `Ser`, the text one call of `serialize_xml` writes,
  split into named parts (`Lead`, `Middle`, `Content`, `Trail`), and the method
  `WriteXml`, which follows genlib's chunked `write` calls.
- `Layout` (`layout.dfy`): the layout rules stated as properties of the
  written text.
- `Document` (`document.dfy`): the top-level call, `Serialize`, with what the
  whole document looks like, and one fully worked document.

`write` is the only effect. It is modelled as collecting chunks into a list,
which is what `xmlitem.write_to_xml` does when it appends them to a string.

Three facts about the code shape what the model writes:
- Attribute values are written verbatim (genlib.py line 71); `_attribprotect`
  is never applied on this path.
- A name missing from `attributeOrder` ranks 999 (line 70). A configured rank
  of 999 therefore ties with unlisted names, which are then ordered by name,
  and a configured rank above 999 sorts after them.
- A CDATA section (line 80) is `<![CDATA[`, a newline, a tab and the indent,
  then the text with each newline followed by a tab and the indent, then a
  newline, the indent and `]]>`. The text is not escaped.

## Model

| member | source | states |
|---|---|---|
| Escape.ProtectEscapes | lib/silfont/genlib.py:13-18 | escaped text holds no raw character of the table, except an `&` that begins one of the table's entities |
| Escape.ProtectIdentity | lib/silfont/genlib.py:49-50 | `_protect` leaves a string unchanged exactly when it contains none of the table's characters |
| Escape.ProtectLength | lib/silfont/genlib.py:49-50 | escaping never shortens text, and keeps its length only when there is nothing to escape |
| Escape.UnescapeProtect | lib/silfont/genlib.py:49-50 | decoding the four entities the tables introduce (`&amp;`, `&lt;`, `&gt;`, `&quot;`) gives back the text that was escaped, with either table |
| Escape.ProtectInjective | lib/silfont/genlib.py:49-50 | two different strings never escape to the same text |
| Escape.Protect | lib/silfont/genlib.py:49-50 | definition; stated by `ProtectEscapes`, `ProtectIdentity`, `UnescapeProtect` |
| Strings.StripEmptyIffBlank | lib/silfont/genlib.py:72-74 | `s.strip()` is empty exactly when every character is whitespace, so the truthiness test is `IsBlank` |
| Strings.Split | lib/silfont/genlib.py:66 | `split(",")` gives one more piece than there are commas, and no piece contains a comma |
| Strings.JoinSplit | lib/silfont/genlib.py:66 | joining the pieces of a split with the separator gives back the string |
| Strings.SplitJoin | lib/silfont/genlib.py:99 | splitting a join of comma-free pieces gives back the pieces |
| Strings.ReplaceAll | lib/silfont/genlib.py:77 | replacing a character grows the text by one less than the replacement's length per occurrence |
| Strings.ReplaceAllIsJoinSplit | lib/silfont/genlib.py:77 | `t.replace(c, r)` equals `r.join(t.split(c))` |
| Strings.UninsertReplaceAll | lib/silfont/genlib.py:80 | inserting a prefix after every newline can always be undone, so the text is recoverable from the CDATA body |
| AttribOrder.MakeAttribOrder | lib/silfont/genlib.py:373-374 | the keys are exactly the listed names, and each maps to the index of its last occurrence |
| AttribOrder.RanksFollowList | lib/silfont/genlib.py:373-374 | with at most 999 distinct names, each name ranks at its index, earlier names before later, and listed before unlisted |
| AttribOrder.Rank | lib/silfont/genlib.py:70 | definition of `attributeOrder.get(k, 999)`; stated by `RanksFollowList` |
| AttribOrder.KeyLe | lib/silfont/genlib.py:70 | definition of the comparator; stated by `KeyLeTotal`, `KeyLeTransitive`, `KeyLeAntisymmetric` |
| AttribOrder.KeyLeTotal | lib/silfont/genlib.py:70 | the comparator relates every two names |
| AttribOrder.KeyLeTransitive | lib/silfont/genlib.py:70 | the comparator is transitive |
| AttribOrder.KeyLeAntisymmetric | lib/silfont/genlib.py:70 | the comparator ties two names only when they are equal |
| AttribOrder.StrLtTransitive | lib/silfont/genlib.py:70 | `cmp` on strings is transitive |
| AttribOrder.StrLtTotal | lib/silfont/genlib.py:70 | `cmp` on strings orders every two different strings |
| AttribOrder.Insert | lib/silfont/genlib.py:70 | inserting into a sorted list keeps it sorted and adds exactly the one attribute |
| AttribOrder.SortAttrs | lib/silfont/genlib.py:70 | the sorted attribute list is ordered by rank and then name, and is a permutation of the dictionary |
| AttribOrder.SortedUnique | lib/silfont/genlib.py:70 | distinct names have only one sorted arrangement |
| AttribOrder.SortIgnoresInsertionOrder | lib/silfont/genlib.py:70 | the written order of attributes does not depend on the order the dictionary holds them in |
| AttribOrder.ContentAttrs | lib/silfont/genlib.py:71 | no kept name is dot-prefixed, and every other pair is kept as often as the input holds it: exactly the non-metadata attributes |
| AttribOrder.SortThenFilter | lib/silfont/genlib.py:70-71 | sorting every name and skipping metadata equals sorting only the non-metadata names |
| Tree.Get | lib/silfont/genlib.py:60 | `attrib[k]` is present exactly when some pair has name `k`, and is that pair's value |
| Tree.GetIgnoresOrder | lib/silfont/genlib.py:65 | looking up a name does not depend on the dictionary's order |
| Document.Serialize | lib/silfont/genlib.py:52-101 | a document exists exactly when every attribute name is non-empty (an empty one makes `k[0]` raise); it opens with the XML declaration and the `.doctype` line when present and ends with a newline; with equal indent steps, the rest is what a nested call writes |
| Writer.WriteXml | lib/silfont/genlib.py:52-101 | the chunks passed to `write` concatenate to `Ser`; their number is one per leaf and two per inner element, and the call fails exactly on an empty attribute name |
| Writer.WriteChildren | lib/silfont/genlib.py:89 | the children are written in order, and their chunks concatenate to the children's text |
| Writer.Ser | lib/silfont/genlib.py:52-101 | definition; stated by `WriteXml`, `Layout.SelfClosingLaw`, `Layout.ChildrenLayout`, `Layout.InsertionOrderIrrelevant` |
| Writer.Middle | lib/silfont/genlib.py:72-93 | definition; stated by `Layout.SelfClosingLaw` |
| Writer.Content | lib/silfont/genlib.py:74-90 | definition; stated by `Layout.ChildrenLayout`, `Layout.TextRoundTrip` |
| Writer.SerChildren | lib/silfont/genlib.py:89 | definition; stated by `WriteChildren`, `Layout.ChildrenEndWithNewline` |
| Writer.TextPart | lib/silfont/genlib.py:74-81 | definition; stated by `Layout.TextRoundTrip`, `Layout.TextEscaped` |
| Writer.TailPart | lib/silfont/genlib.py:94-95 | definition; stated by `Layout.TailRoundTrip` |
| Writer.Trail | lib/silfont/genlib.py:94-99 | definition; stated by `Layout.EndsWithNewline`, `Layout.TailRoundTrip` |
| Writer.Comments | lib/silfont/genlib.py:65-66 | definition; stated by `Layout.CommentsShape`, `Layout.CommentLineCount` |
| Escape.ElementProtect | lib/silfont/genlib.py:13-16 | definition of the element table (`&`, `<`, `>`); stated by `Escape.ProtectEscapes`, `Escape.UnescapeProtect`, `Layout.TextEscaped` |
| Escape.AttribProtect | lib/silfont/genlib.py:17-18 | definition of the element table with `"` added; stated by `Escape.ProtectEscapes`, `Escape.UnescapeProtect` |
| Writer.XmlDecl | lib/silfont/genlib.py:59 | definition of the declaration line; stated by `Layout.DocumentShape`, `Document.Serialize` |
| Writer.DoctypeDecl | lib/silfont/genlib.py:60 | definition; stated by `Layout.DocumentShape` |
| Writer.Prolog | lib/silfont/genlib.py:57-60 | definition; stated by `Layout.DocumentShape`, `Layout.LeadProlog`, `Layout.PrologOnlyAtTop` |
| Writer.Lead | lib/silfont/genlib.py:57-68 | definition; stated by `Layout.SerStartsWithLead`, `Layout.LeadProlog`, `Layout.ChildrenLayout` |
| Writer.Open | lib/silfont/genlib.py:65-68 | definition; stated by `Layout.LeadStartsWithIndent`, `Layout.SerStartsWithLead` |
| Writer.OpenTag | lib/silfont/genlib.py:68-71 | definition; stated by `Layout.AttributesWritten`, `Layout.SerStartsWithLead` |
| Writer.AttrText | lib/silfont/genlib.py:70-71 | definition; stated by `Layout.AttributesWritten`, `Layout.EdgesIrrelevant` |
| Writer.RenderSorted | lib/silfont/genlib.py:70-71 | definition; stated by `Layout.RenderSortedContent`, `Layout.AttributesWritten` |
| Writer.AttrItem | lib/silfont/genlib.py:71 | definition of one ` k="v"` item, value written verbatim; stated by `Layout.AttributesWritten` |
| AttribOrder.IsMeta | lib/silfont/genlib.py:71 | definition of the `k[0] <> '.'` test; stated by `AttribOrder.ContentAttrs`, `Layout.AttributesWritten` |
| AttribOrder.StrLt | lib/silfont/genlib.py:70 | definition of `cmp(x, y) < 0` on names; stated by `AttribOrder.StrLtTotal`, `AttribOrder.StrLtTransitive` |
| Writer.HasContent | lib/silfont/genlib.py:72-74 | definition of `t and t.strip()`; stated by `Layout.TextRoundTrip`, `Layout.TailRoundTrip`, `Layout.SelfClosingLaw` |
| Writer.SelfCloses | lib/silfont/genlib.py:72 | definition; stated by `Layout.SelfClosingLaw` |
| Writer.CDataOpen | lib/silfont/genlib.py:80 | definition; stated by `Layout.TextRoundTrip` |
| Writer.CDataClose | lib/silfont/genlib.py:80 | definition; stated by `Layout.TextRoundTrip` |
| Writer.ChildIndent | lib/silfont/genlib.py:84-87 | definition; stated by `Layout.ChildrenLayout` |
| Writer.Writes | lib/silfont/genlib.py:88-101 | definition of the number of `write` calls; stated by `Writer.WriteXml` |
| Layout.PrologOnlyAtTop | lib/silfont/genlib.py:57-60 | with equal indent steps, the top-level call writes exactly a nested call's text preceded by the declaration and DOCTYPE line |
| Layout.LeadProlog | lib/silfont/genlib.py:57-68 | the prolog is the only difference between the top-level and a nested open tag |
| Layout.NestedStartsWithIndent | lib/silfont/genlib.py:57-68 | a nested call writes no prolog: its text starts with its indent |
| Layout.SerStartsWithLead | lib/silfont/genlib.py:57-71 | an element's text starts with its prolog, comment lines and open tag |
| Layout.LeadStartsWithIndent | lib/silfont/genlib.py:65-68 | without the prolog, the open part of an element starts with its indent |
| Layout.DocumentShape | lib/silfont/genlib.py:57-60 | the root's text opens with the XML declaration, then the `<!DOCTYPE ...>` line exactly as `.doctype` gives it, and ends with a newline; with equal indent steps the rest is a nested call's text |
| Layout.EndsWithNewline | lib/silfont/genlib.py:94-99 | every element's text ends with a newline |
| Layout.SelfClosingLaw | lib/silfont/genlib.py:72-73 | `/>` follows the open tag exactly when there are no children and no non-blank text; otherwise `>` follows it and the close tag precedes the trail |
| Layout.ChildrenLayout | lib/silfont/genlib.py:82-91 | with children, the text is the open tag and any text, a newline, then every child in order at the deeper indent, then the indent, close tag and trail; the close tag stands on its own line, and each child starts with the deeper indent and ends with a newline |
| Layout.ChildrenEndWithNewline | lib/silfont/genlib.py:89 | the children's text ends with a newline |
| Layout.CommentsShape | lib/silfont/genlib.py:65-66 | comment lines are the value with each comma turned into the end of one comment and the start of the next, starting at the indent and ending with a newline |
| Layout.CommentLinesJoin | lib/silfont/genlib.py:66 | the comment lines equal the pieces joined by `-->` newline indent `<!--` inside one comment frame |
| Layout.CommentLineCount | lib/silfont/genlib.py:65-66 | with no newline in the indent or the value, the comment lines hold exactly one newline per comma-separated piece: one more than the value has commas |
| Layout.TextRoundTrip | lib/silfont/genlib.py:74-81 | blank text is not written; other text is written whole, never stripped, and decodes back to itself; a CDATA tag's text starts with `<![CDATA[`, newline, tab, indent and ends with newline, indent, `]]>` |
| Layout.TextEscaped | lib/silfont/genlib.py:75-78 | outside CDATA tags the written text holds no raw `<` or `>`, and every `&` begins an entity |
| Layout.TailRoundTrip | lib/silfont/genlib.py:94-95 | a blank tail is not written; any other is written escaped and decodes back to itself |
| Layout.RenderSortedContent | lib/silfont/genlib.py:70-71 | writing a sorted list with metadata skipped writes every non-metadata item |
| Layout.ContentAttrsIdempotent | lib/silfont/genlib.py:71 | dropping metadata twice is dropping it once |
| Layout.AttributesWritten | lib/silfont/genlib.py:68-71 | the open tag carries exactly the non-metadata attributes, each as ` k="v"` with the value verbatim, in comparator order; metadata changes nothing |
| Layout.NamesNonEmptyPermutation | lib/silfont/genlib.py:70-71 | reordering a dictionary keeps its names non-empty |
| Layout.InsertionOrderIrrelevant | lib/silfont/genlib.py:52-101 | trees whose dictionaries differ only in order serialize to the same text |
| Layout.EdgesIrrelevant | lib/silfont/genlib.py:57-71 | the prolog, open tag and trail depend on the dictionary's contents, not its order |
| Layout.ChildrenIrrelevant | lib/silfont/genlib.py:89 | children alike up to dictionary order write the same text |
| Document.ExampleDocument | lib/silfont/genlib.py:52-101 | a root `a` with `id="1"` and one child `b` whose text is `<` serializes to the declaration, `<a id="1">`, ` <b>&lt;</b>` and `</a>` on successive lines |

## Left out

- The namespace-qualifying path (`serialize_nsxml`, `_localisens`, `_nsprotectattribs`, `add_namespace`): the code marks it unused and it mutates the tree.
- `dirTree`, `xmlitem`, `loggerobj`, `csvreader` and the command-line plumbing: file system, parsing, logging and argument handling.
- `write` is a parameter of `serialize_xml`; it is modelled as appending chunks to a list, the only sink the library uses.
- Writer.WriteXml: on an empty attribute name the Python code raises after some chunks may already have been written; the model reports failure and does not describe that partial output.
- Unicode whitespace: `strip` is modelled over the ASCII whitespace of Python 2 byte strings.
- ElementTree comment and processing-instruction nodes, and output encoding.
- Comment text and CDATA content are not checked for `--` or `]]>`, as in the code; the model therefore makes no well-formedness claim about them.
- Python's `re` engine: `_protect` is modelled by its effect, one left-to-right substitution per table character.
- Attribute dictionaries are sequences of (name, value) pairs; a sequence that repeats a name is outside genlib's domain (a dictionary holds each name once), and the order-independence lemmas require `DistinctNames`.
- Writer.Ser: one flag `isRoot` stands for both `base is None` (line 57, which writes the prolog) and `base == self.root` (line 84, which picks `indentFirst`). A call that passes the root explicitly as `base` writes no prolog yet indents the children by `indentFirst`; that call is not modelled.

=== FILE: attriborder.dfy ===
/**
  Attribute ordering: the rank map built by `makeAttribOrder`, the comparator
  `serialize_xml` hands to `sorted` (rank first, then the name), and a proved
  sort of an element's attributes under that comparator.
 */
module AttribOrder {

  /** An attribute as a (name, value) pair. */
  type Attr = (string, string)

  /** The rank `attributeOrder.get(k, 999)` gives a name the map does not list. */
  const DefaultRank: int := 999

  /** `makeAttribOrder(attriblist)`: `dict` of the pairs `(name, index)` taken
      in list order, so a later occurrence of a name overwrites an earlier one. */
  function MakeAttribOrder(names: seq<string>): (m: map<string, int>)
    ensures m.Keys == set i | 0 <= i < |names| :: names[i]
    ensures forall k :: k in m ==> 0 <= m[k] < |names| && names[m[k]] == k
    ensures forall k, j :: k in m && m[k] < j < |names| ==> names[j] != k
  {
    if |names| == 0 then map[]
    else MakeAttribOrder(names[..|names| - 1])[names[|names| - 1] := |names| - 1]
  }

  /** The rank of an attribute name under the configured order. */
  function Rank(order: map<string, int>, k: string): int {
    if k in order then order[k] else DefaultRank
  }

  /** With a list of at most 999 distinct names, earlier names rank strictly
      before later ones, and every listed name ranks strictly before every
      unlisted one. */
  lemma RanksFollowList(names: seq<string>, i: int, j: int, other: string)
    requires forall p, q :: 0 <= p < q < |names| ==> names[p] != names[q]
    requires |names| <= DefaultRank
    requires 0 <= i < j < |names|
    requires forall p :: 0 <= p < |names| ==> names[p] != other
    ensures Rank(MakeAttribOrder(names), names[i]) == i
    ensures Rank(MakeAttribOrder(names), names[i]) < Rank(MakeAttribOrder(names), names[j])
    ensures Rank(MakeAttribOrder(names), names[j]) < Rank(MakeAttribOrder(names), other)
  {
    var m := MakeAttribOrder(names);
    assert names[i] in m && names[j] in m;
    assert other !in m;
  }

  /** `cmp(a, b) < 0` on Python 2 strings: lexicographic by character, a proper
      prefix sorting first. */
  predicate StrLt(a: string, b: string)
    decreases |a|
  {
    if |a| == 0 then |b| > 0
    else |b| > 0 && (a[0] < b[0] || (a[0] == b[0] && StrLt(a[1..], b[1..])))
  }

  lemma {:induction false} StrLtIrreflexive(a: string)
    ensures !StrLt(a, a)
    decreases |a|
  {
    if |a| > 0 {
      StrLtIrreflexive(a[1..]);
    }
  }

  lemma {:induction false} StrLtTransitive(a: string, b: string, c: string)
    requires StrLt(a, b) && StrLt(b, c)
    ensures StrLt(a, c)
    decreases |a|
  {
    if |a| > 0 && a[0] == b[0] && b[0] == c[0] {
      StrLtTransitive(a[1..], b[1..], c[1..]);
    }
  }

  lemma {:induction false} StrLtTotal(a: string, b: string)
    ensures a == b || StrLt(a, b) || StrLt(b, a)
    decreases |a|
  {
    if |a| > 0 && |b| > 0 && a[0] == b[0] {
      StrLtTotal(a[1..], b[1..]);
      if a[1..] == b[1..] {
        assert a == [a[0]] + a[1..] && b == [b[0]] + b[1..];
      }
    }
  }

  lemma StrLtAsymmetric(a: string, b: string)
    ensures !(StrLt(a, b) && StrLt(b, a))
  {
    if StrLt(a, b) && StrLt(b, a) {
      StrLtTransitive(a, b, a);
      StrLtIrreflexive(a);
    }
  }

  /** The comparator of genlib's `sorted` call does not put `b` before `a`:
      `cmp(rank a, rank b) or cmp(a, b)` is at most zero. */
  predicate KeyLe(order: map<string, int>, a: string, b: string) {
    Rank(order, a) < Rank(order, b) || (Rank(order, a) == Rank(order, b) && (a == b || StrLt(a, b)))
  }

  lemma KeyLeTotal(order: map<string, int>, a: string, b: string)
    ensures KeyLe(order, a, b) || KeyLe(order, b, a)
  {
    StrLtTotal(a, b);
  }

  lemma KeyLeTransitive(order: map<string, int>, a: string, b: string, c: string)
    requires KeyLe(order, a, b) && KeyLe(order, b, c)
    ensures KeyLe(order, a, c)
  {
    if Rank(order, a) == Rank(order, b) == Rank(order, c) && a != b && b != c && a != c {
      StrLtTransitive(a, b, c);
    }
    if Rank(order, a) == Rank(order, b) == Rank(order, c) && a == c && a != b {
      StrLtAsymmetric(a, b);
    }
  }

  lemma KeyLeAntisymmetric(order: map<string, int>, a: string, b: string)
    requires KeyLe(order, a, b) && KeyLe(order, b, a)
    ensures a == b
  {
    StrLtAsymmetric(a, b);
  }

  /** Attributes in ascending comparator order. */
  predicate Sorted(order: map<string, int>, s: seq<Attr>) {
    forall i, j :: 0 <= i < j < |s| ==> KeyLe(order, s[i].0, s[j].0)
  }

  /** `y` sorts no later than any attribute of `s`. */
  predicate Below(order: map<string, int>, y: Attr, s: seq<Attr>) {
    forall i :: 0 <= i < |s| ==> KeyLe(order, y.0, s[i].0)
  }

  lemma SortedCons(order: map<string, int>, y: Attr, s: seq<Attr>)
    requires Below(order, y, s) && Sorted(order, s)
    ensures Sorted(order, [y] + s)
  {
    var r := [y] + s;
    forall i, j | 0 <= i < j < |r|
      ensures KeyLe(order, r[i].0, r[j].0)
    {
      if i > 0 {
        assert r[i] == s[i - 1] && r[j] == s[j - 1];
      } else {
        assert r[j] == s[j - 1];
      }
    }
  }

  /** Inserts `x` before the first attribute it does not sort after. */
  function Insert(order: map<string, int>, x: Attr, s: seq<Attr>): (r: seq<Attr>)
    ensures Sorted(order, s) ==> Sorted(order, r)
    ensures multiset(r) == multiset(s) + multiset{x}
  {
    if |s| == 0 then [x]
    else if KeyLe(order, x.0, s[0].0) then
      InsertFront(order, x, s);
      [x] + s
    else
      var r' := Insert(order, x, s[1..]);
      ConsMultiset(x, s, r');
      if Sorted(order, s) then
        SortedTail(order, s);
        InsertBehind(order, x, s, r');
        [s[0]] + r'
      else
        [s[0]] + r'
  }

  lemma ConsMultiset(x: Attr, s: seq<Attr>, r': seq<Attr>)
    requires |s| > 0
    requires multiset(r') == multiset(s[1..]) + multiset{x}
    ensures multiset([s[0]] + r') == multiset(s) + multiset{x}
  {
    assert s == [s[0]] + s[1..];
  }

  lemma InsertFront(order: map<string, int>, x: Attr, s: seq<Attr>)
    requires |s| > 0 && KeyLe(order, x.0, s[0].0)
    ensures Sorted(order, s) ==> Sorted(order, [x] + s)
  {
    if !Sorted(order, s) {
      return;
    }
    forall i | 0 <= i < |s|
      ensures KeyLe(order, x.0, s[i].0)
    {
      if i > 0 {
        KeyLeTransitive(order, x.0, s[0].0, s[i].0);
      }
    }
    SortedCons(order, x, s);
  }

  lemma InsertBehind(order: map<string, int>, x: Attr, s: seq<Attr>, r': seq<Attr>)
    requires Sorted(order, s) && |s| > 0 && !KeyLe(order, x.0, s[0].0)
    requires Sorted(order, r')
    requires multiset(r') == multiset(s[1..]) + multiset{x}
    ensures Sorted(order, [s[0]] + r')
  {
    KeyLeTotal(order, x.0, s[0].0);
    forall i | 0 <= i < |r'|
      ensures KeyLe(order, s[0].0, r'[i].0)
    {
      assert r'[i] in multiset(r');
      if r'[i] != x {
        assert r'[i] in multiset(s[1..]);
        var k :| 0 <= k < |s[1..]| && s[1..][k] == r'[i];
        assert s[k + 1] == r'[i];
      }
    }
    SortedCons(order, s[0], r');
  }

  /** The attribute list in the order `sorted(attribs.keys(), cmp=...)` yields:
      ascending by rank, then by name; a sorted permutation of the input. */
  function SortAttrs(order: map<string, int>, a: seq<Attr>): (r: seq<Attr>)
    ensures Sorted(order, r)
    ensures multiset(r) == multiset(a)
  {
    if |a| == 0 then []
    else
      assert a == [a[0]] + a[1..];
      Insert(order, a[0], SortAttrs(order, a[1..]))
  }

  /** No two attributes share a name, as in the dictionary genlib sorts. */
  predicate DistinctNames(a: seq<Attr>) {
    forall i, j :: 0 <= i < j < |a| ==> a[i].0 != a[j].0
  }

  /** Under the comparator there is only one sorted arrangement of a set of
      distinctly named attributes. */
  lemma {:induction false} SortedUnique(order: map<string, int>, a: seq<Attr>, b: seq<Attr>)
    requires Sorted(order, a) && Sorted(order, b)
    requires multiset(a) == multiset(b)
    requires DistinctNames(a)
    ensures a == b
    decreases |a|
  {
    assert |a| == |multiset(a)| == |multiset(b)| == |b|;
    if |a| > 0 {
      SortedSameHead(order, a, b);
      TailsAlike(order, a, b);
      SortedUnique(order, a[1..], b[1..]);
      assert a == [a[0]] + a[1..] && b == [b[0]] + b[1..];
    }
  }

  lemma TailsAlike(order: map<string, int>, a: seq<Attr>, b: seq<Attr>)
    requires Sorted(order, a) && Sorted(order, b) && DistinctNames(a)
    requires |a| > 0 && |b| > 0 && a[0] == b[0]
    requires multiset(a) == multiset(b)
    ensures Sorted(order, a[1..]) && Sorted(order, b[1..]) && DistinctNames(a[1..])
    ensures multiset(a[1..]) == multiset(b[1..])
  {
    SortedTail(order, a);
    SortedTail(order, b);
  }

  /** Dropping the first attribute keeps a list sorted and distinctly named,
      and removes one copy of that attribute. */
  lemma SortedTail(order: map<string, int>, a: seq<Attr>)
    requires |a| > 0
    ensures Sorted(order, a) ==> Sorted(order, a[1..])
    ensures DistinctNames(a) ==> DistinctNames(a[1..])
    ensures multiset(a[1..]) == multiset(a) - multiset{a[0]}
  {
    assert a == [a[0]] + a[1..];
  }

  /** Two sorted arrangements of the same distinctly named attributes start alike. */
  lemma SortedSameHead(order: map<string, int>, a: seq<Attr>, b: seq<Attr>)
    requires Sorted(order, a) && Sorted(order, b)
    requires multiset(a) == multiset(b)
    requires DistinctNames(a)
    requires |a| > 0 && |b| > 0
    ensures a[0] == b[0]
  {
    assert a[0] in multiset(b) && b[0] in multiset(a);
    var j :| 0 <= j < |b| && b[j] == a[0];
    var i :| 0 <= i < |a| && a[i] == b[0];
    if i > 0 {
      assert KeyLe(order, a[0].0, a[i].0);
      if j > 0 {
        assert KeyLe(order, b[0].0, b[j].0);
        KeyLeAntisymmetric(order, a[0].0, a[i].0);
        assert false;
      }
    }
  }

  /** The order in which a dictionary happens to hold its attributes does not
      change the order in which they are written. */
  lemma SortIgnoresInsertionOrder(order: map<string, int>, a1: seq<Attr>, a2: seq<Attr>)
    requires multiset(a1) == multiset(a2)
    requires DistinctNames(a1)
    ensures SortAttrs(order, a1) == SortAttrs(order, a2)
  {
    var s1 := SortAttrs(order, a1);
    DistinctNamesPermutation(a1, s1);
    SortedUnique(order, s1, SortAttrs(order, a2));
  }

  lemma DistinctNamesPermutation(a: seq<Attr>, b: seq<Attr>)
    requires multiset(a) == multiset(b)
    requires DistinctNames(a)
    ensures DistinctNames(b)
  {
    forall i, j | 0 <= i < j < |b|
      ensures b[i].0 != b[j].0
    {
      if b[i].0 == b[j].0 {
        assert b[i] in multiset(a) && b[j] in multiset(a);
        var p :| 0 <= p < |a| && a[p] == b[i];
        var q :| 0 <= q < |a| && a[q] == b[j];
        if p == q {
          MultisetTwice(b, i, j);
          assert multiset(a)[a[p]] >= 2;
          MultisetOnce(a, p);
        }
      }
    }
  }

  lemma MultisetTwice(s: seq<Attr>, i: int, j: int)
    requires 0 <= i < j < |s| && s[i] == s[j]
    ensures multiset(s)[s[i]] >= 2
  {
    var x := s[i];
    assert s == s[..i] + [x] + s[i + 1..j] + [x] + s[j + 1..];
  }

  lemma MultisetOnce(a: seq<Attr>, p: int)
    requires DistinctNames(a) && 0 <= p < |a|
    ensures multiset(a)[a[p]] == 1
  {
    var x := a[p];
    assert a == a[..p] + [x] + a[p + 1..];
    assert x !in a[..p] by {
      forall k | 0 <= k < p ensures a[..p][k] != x { assert a[k].0 != a[p].0; }
    }
    assert x !in a[p + 1..] by {
      forall k | p < k < |a| ensures a[k] != x { assert a[p].0 != a[k].0; }
    }
  }

  /** A dot-prefixed name: metadata, never written as an attribute. */
  predicate IsMeta(k: string) {
    |k| > 0 && k[0] == '.'
  }

  /** The attributes that are markup rather than metadata, in their given order. */
  function ContentAttrs(a: seq<Attr>): (r: seq<Attr>)
    ensures forall i :: 0 <= i < |r| ==> !IsMeta(r[i].0)
    ensures multiset(r) <= multiset(a)
    ensures forall x: Attr {:trigger multiset(a)[x]} :: !IsMeta(x.0) ==> multiset(r)[x] == multiset(a)[x]
  {
    if |a| == 0 then []
    else
      assert a == [a[0]] + a[1..];
      (if IsMeta(a[0].0) then [] else [a[0]]) + ContentAttrs(a[1..])
  }

  lemma {:induction false} ContentAttrsInsert(order: map<string, int>, x: Attr, s: seq<Attr>)
    requires Sorted(order, s)
    ensures ContentAttrs(Insert(order, x, s)) ==
      if IsMeta(x.0) then ContentAttrs(s) else Insert(order, x, ContentAttrs(s))
    decreases |s|, 1
  {
    if |s| == 0 {
    } else if KeyLe(order, x.0, s[0].0) {
      assert Insert(order, x, s) == [x] + s;
      assert ([x] + s)[1..] == s;
      if !IsMeta(x.0) {
        var c := ContentAttrs(s);
        if |c| > 0 {
          assert c[0] in multiset(c);
          assert c[0] in multiset(s);
          var k :| 0 <= k < |s| && s[k] == c[0];
          if k > 0 {
            KeyLeTransitive(order, x.0, s[0].0, s[k].0);
          }
          assert Insert(order, x, c) == [x] + c;
        }
      }
    } else {
      InsertBeforeLemma(order, x, s);
    }
  }

  lemma {:induction false} InsertBeforeLemma(order: map<string, int>, x: Attr, s: seq<Attr>)
    requires Sorted(order, s)
    requires |s| > 0 && !KeyLe(order, x.0, s[0].0)
    ensures ContentAttrs(Insert(order, x, s)) ==
      if IsMeta(x.0) then ContentAttrs(s) else Insert(order, x, ContentAttrs(s))
    decreases |s|, 0
  {
    var r' := Insert(order, x, s[1..]);
    assert Insert(order, x, s) == [s[0]] + r';
    ContentAttrsPrepend(s[0], r');
    ContentAttrsUnfold(s);
    ContentAttrsInsert(order, x, s[1..]);
    InsertBehindFiltered(order, x, s[0], ContentAttrs(s[1..]), ContentAttrs(r'));
  }

  /** The step behind `InsertBeforeLemma`: `y` sorts before `x`, and `cr` is the
      filtered tail with `x` inserted unless `x` is metadata. */
  lemma InsertBehindFiltered(order: map<string, int>, x: Attr, y: Attr, c': seq<Attr>, cr: seq<Attr>)
    requires !KeyLe(order, x.0, y.0)
    requires cr == if IsMeta(x.0) then c' else Insert(order, x, c')
    ensures (if IsMeta(y.0) then [] else [y]) + cr ==
      if IsMeta(x.0) then (if IsMeta(y.0) then [] else [y]) + c'
      else Insert(order, x, (if IsMeta(y.0) then [] else [y]) + c')
  {
    if IsMeta(y.0) {
      assert [] + cr == cr;
      assert [] + c' == c';
    } else if !IsMeta(x.0) {
      assert ([y] + c')[1..] == c';
      assert ([y] + c')[0] == y;
    }
  }

  lemma {:induction false} ContentAttrsSorted(order: map<string, int>, s: seq<Attr>)
    requires Sorted(order, s)
    ensures Sorted(order, ContentAttrs(s))
  {
    if |s| > 0 {
      ContentAttrsSorted(order, s[1..]);
      var rest := ContentAttrs(s[1..]);
      if !IsMeta(s[0].0) {
        forall i | 0 <= i < |rest|
          ensures KeyLe(order, s[0].0, rest[i].0)
        {
          assert rest[i] in multiset(rest);
          assert rest[i] in multiset(s[1..]);
          var k :| 0 <= k < |s[1..]| && s[1..][k] == rest[i];
          assert s[k + 1] == rest[i];
        }
        SortedCons(order, s[0], rest);
      }
    }
  }

  /** Sorting every attribute and then skipping the metadata gives the same
      list as sorting only the content attributes. */
  lemma {:induction false} SortThenFilter(order: map<string, int>, a: seq<Attr>)
    ensures ContentAttrs(SortAttrs(order, a)) == SortAttrs(order, ContentAttrs(a))
  {
    if |a| > 0 {
      var s' := SortAttrs(order, a[1..]);
      assert SortAttrs(order, a) == Insert(order, a[0], s');
      SortThenFilter(order, a[1..]);
      ContentAttrsInsert(order, a[0], s');
      ContentAttrsCons(order, a);
    }
  }

  lemma ContentAttrsCons(order: map<string, int>, a: seq<Attr>)
    requires |a| > 0
    ensures SortAttrs(order, ContentAttrs(a)) ==
      if IsMeta(a[0].0) then SortAttrs(order, ContentAttrs(a[1..]))
      else Insert(order, a[0], SortAttrs(order, ContentAttrs(a[1..])))
  {
    ContentAttrsUnfold(a);
    var c' := ContentAttrs(a[1..]);
    if !IsMeta(a[0].0) {
      assert ContentAttrs(a) == [a[0]] + c';
      SortAttrsUnfold(order, a[0], c');
    } else {
      assert ContentAttrs(a) == [] + c';
      assert [] + c' == c';
    }
  }

  lemma ContentAttrsUnfold(a: seq<Attr>)
    requires |a| > 0
    ensures ContentAttrs(a) == (if IsMeta(a[0].0) then [] else [a[0]]) + ContentAttrs(a[1..])
  {
  }

  lemma ContentAttrsPrepend(y: Attr, t: seq<Attr>)
    ensures ContentAttrs([y] + t) == (if IsMeta(y.0) then [] else [y]) + ContentAttrs(t)
  {
    assert ([y] + t)[1..] == t;
  }

  lemma SortAttrsUnfold(order: map<string, int>, x: Attr, c: seq<Attr>)
    ensures SortAttrs(order, [x] + c) == Insert(order, x, SortAttrs(order, c))
  {
    assert ([x] + c)[1..] == c;
  }
}

=== FILE: document.dfy ===
/**
  A whole document: `serialize_xml(write)` called with no element, which starts
  at the writer's root and writes the prolog before it.
 */
module Document {
  import opened Wrappers
  import opened Strings
  import opened Tree
  import opened Escape
  import opened AttribOrder
  import opened Writer
  import opened Layout

  /** What stops serialization: an empty attribute name, on which the Python
      code's test `k[0]` raises `IndexError`. */
  datatype SerializeError = EmptyAttributeName

  /** `serialize_xml(write)` on the writer's root, with everything written
      collected into one string. The text opens with the XML declaration and
      the DOCTYPE line when the root has `.doctype`, and ends with a newline;
      with equal indent steps, the rest is what a nested call writes. */
  function Serialize(cfg: Config, root: Node): (r: Result<string, SerializeError>)
    ensures r.Success? <==> WellNamed(root)
    ensures r.Success? ==>
      StartsWith(r.value, XmlDecl + DoctypeDecl(root)) && EndsWith(r.value, "\n")
    ensures r.Success? && Get(root.attrs, ".doctype").Some? ==>
      StartsWith(r.value, XmlDecl + "<!DOCTYPE " + Get(root.attrs, ".doctype").value + ">\n")
    ensures r.Success? && cfg.indentFirst == cfg.indentIncr ==>
      r.value == XmlDecl + DoctypeDecl(root) + Ser(cfg, root, "", false)
  {
    if WellNamed(root) then
      DocumentShape(cfg, root);
      Success(Ser(cfg, root, "", true))
    else
      Failure(EmptyAttributeName)
  }

  // ---------------------------------------------------------------------
  // A worked document

  const ExampleConfig: Config := Config(map["id" := 0], {}, " ", " ", false)
  const ExampleLeaf: Node := Node("b", [], Some("<"), None, [])
  const ExampleRoot: Node := Node("a", [("id", "1")], None, None, [ExampleLeaf])

  /** A root `<a id="1">` (rank 0) holding `<b>` whose text is `<`, written
      with one-space indents. */
  lemma ExampleDocument()
    ensures Serialize(ExampleConfig, ExampleRoot)
      == Success(XmlDecl + "<a id=\"1\">\n <b>&lt;</b>\n</a>\n")
  {
    var cfg, root := ExampleConfig, ExampleRoot;
    ExampleRootMiddle();
    ExampleRootLead();
    ExampleRootTrail();
    RootConcat(XmlDecl, Lead(cfg, root, "", true), Middle(cfg, root, "", true), Trail(root, ""));
  }

  lemma RootConcat(x: string, l: string, m: string, t: string)
    requires l == x + "<a id=\"1\""
    requires m == ">\n <b>&lt;</b>\n</a>"
    requires t == "\n"
    ensures l + m + t == x + "<a id=\"1\">\n <b>&lt;</b>\n</a>\n"
  {
    var r := "<a id=\"1\"";
    assert r + m + t == "<a id=\"1\">\n <b>&lt;</b>\n</a>\n";
    assert (x + r) + m + t == x + (r + m + t);
  }

  lemma ExampleRootMiddle()
    ensures WellNamed(ExampleRoot)
    ensures Middle(ExampleConfig, ExampleRoot, "", true) == ">\n <b>&lt;</b>\n</a>"
  {
    var cfg, root := ExampleConfig, ExampleRoot;
    ExampleRootContent();
    assert !SelfCloses(root);
    var c, e := Content(cfg, root, "", true), CloseTag(root);
    assert e == "</a>";
    assert Middle(cfg, root, "", true) == ">" + c + e;
    MiddleConcat(c, e);
  }

  lemma MiddleConcat(c: string, e: string)
    requires c == "\n <b>&lt;</b>\n" && e == "</a>"
    ensures ">" + c + e == ">\n <b>&lt;</b>\n</a>"
  {
  }

  lemma ExampleRootContent()
    ensures WellNamed(ExampleRoot)
    ensures Content(ExampleConfig, ExampleRoot, "", true) == "\n <b>&lt;</b>\n"
  {
    var cfg, leaf, root := ExampleConfig, ExampleLeaf, ExampleRoot;
    ExampleLeafSer();
    assert WellNamed(root) by {
      assert forall i :: 0 <= i < |root.children| ==> root.children[i] == leaf;
    }
    ExampleRootChildren();
    var kids := SerChildren(cfg, root.children, " ");
    assert ChildIndent(cfg, "", true) == " ";
    assert TextPart(cfg, root, "") == "";
    var c := Content(cfg, root, "", true);
    assert c == "" + ("\n" + kids + "");
    BlockConcat(c, kids);
  }

  lemma BlockConcat(c: string, kids: string)
    requires kids == " <b>&lt;</b>\n"
    requires c == "" + ("\n" + kids + "")
    ensures c == "\n <b>&lt;</b>\n"
  {
  }

  lemma ExampleRootChildren()
    requires WellNamed(ExampleLeaf)
    requires Ser(ExampleConfig, ExampleLeaf, " ", false) == " <b>&lt;</b>\n"
    ensures SerChildren(ExampleConfig, [ExampleLeaf], " ") == " <b>&lt;</b>\n"
  {
    var cs := [ExampleLeaf];
    assert cs[..0] == [];
    assert SerChildren(ExampleConfig, cs, " ") == "" + Ser(ExampleConfig, ExampleLeaf, " ", false);
  }

  lemma ExampleRootLead()
    ensures Lead(ExampleConfig, ExampleRoot, "", true) == XmlDecl + "<a id=\"1\""
  {
    var cfg, root := ExampleConfig, ExampleRoot;
    var a := ("id", "1");
    assert SortAttrs(cfg.attributeOrder, [a]) == [a] by {
      assert [a][..0] == [];
    }
    assert RenderSorted([a]) == AttrItem(a) + RenderSorted([]);
    assert AttrText(cfg.attributeOrder, root.attrs) == " id=\"1\"";
    assert Get(root.attrs, ".doctype") == None;
    assert Get(root.attrs, ".comments") == None;
    assert Prolog(root, true) == XmlDecl + "";
    assert Open(cfg, root, "") == "" + ("" + "<a id=\"1\"");
  }

  lemma ExampleRootTrail()
    ensures Trail(ExampleRoot, "") == "\n"
  {
    assert Get(ExampleRoot.attrs, ".commentsafter") == None;
  }

  lemma ExampleLeafText()
    ensures TextPart(ExampleConfig, ExampleLeaf, " ") == "&lt;"
  {
    assert !IsSpace("<"[0]);
    assert Protect("<", ElementProtect) == "&lt;" + Protect("", ElementProtect);
  }

  lemma ExampleLeafSer()
    ensures WellNamed(ExampleLeaf)
    ensures Ser(ExampleConfig, ExampleLeaf, " ", false) == " <b>&lt;</b>\n"
  {
    var cfg, leaf := ExampleConfig, ExampleLeaf;
    ExampleLeafLead();
    ExampleLeafMiddle();
    ExampleLeafTrail();
    assert Lead(cfg, leaf, " ", false) + Middle(cfg, leaf, " ", false) + Trail(leaf, " ") == " <b" + ">&lt;</b>" + "\n";
  }

  lemma ExampleLeafLead()
    ensures Lead(ExampleConfig, ExampleLeaf, " ", false) == " <b"
  {
    var cfg, leaf := ExampleConfig, ExampleLeaf;
    assert AttrText(cfg.attributeOrder, []) == "";
    assert OpenTag(cfg, leaf) == "<b";
    assert Get(leaf.attrs, ".comments") == None;
    assert Open(cfg, leaf, " ") == "" + (" " + "<b");
  }

  lemma ExampleLeafMiddle()
    ensures WellNamed(ExampleLeaf)
    ensures Middle(ExampleConfig, ExampleLeaf, " ", false) == ">&lt;</b>"
  {
    var cfg, leaf := ExampleConfig, ExampleLeaf;
    ExampleLeafContent();
    var c, e := Content(cfg, leaf, " ", false), CloseTag(leaf);
    assert e == "</b>";
    assert Middle(cfg, leaf, " ", false) == ">" + c + e;
    assert ">" + c + e == ">&lt;</b>";
  }

  lemma ExampleLeafContent()
    ensures !SelfCloses(ExampleLeaf)
    ensures Content(ExampleConfig, ExampleLeaf, " ", false) == "&lt;"
  {
    var cfg, leaf := ExampleConfig, ExampleLeaf;
    ExampleLeafText();
    assert !IsBlank("<") by {
      assert !IsSpace("<"[0]);
    }
    var t := TextPart(cfg, leaf, " ");
    assert Content(cfg, leaf, " ", false) == t + "";
  }

  lemma ExampleLeafTrail()
    ensures Trail(ExampleLeaf, " ") == "\n"
  {
    assert Get(ExampleLeaf.attrs, ".commentsafter") == None;
  }
}

=== FILE: escape.dfy ===
/**
  Character escaping for element text and tails (`_elementprotect`) and for
  attribute values (`_attribprotect`), and the single-pass substitution
  `ETWriter._protect` that applies one of those tables.
 */
module Escape {
  import opened Strings

  /** `_elementprotect`: the three characters escaped in character data. */
  const ElementProtect: map<char, string> := map['&' := "&amp;", '<' := "&lt;", '>' := "&gt;"]

  /** `_attribprotect`: the element table with the double quote added. */
  const AttribProtect: map<char, string> := ElementProtect['"' := "&quot;"]

  /** One of the two tables genlib passes to `_protect`. */
  predicate IsTable(base: map<char, string>) {
    base == ElementProtect || base == AttribProtect
  }

  /** `_protect(txt, base)`. The Python code builds the regular expression
      `[` + the table's keys + `]`; none of `&`, `<`, `>`, `"` is special inside
      a character class, so the expression matches exactly one key character,
      and `re.sub` replaces every match, left to right, in one pass over the
      input: an entity it has introduced is never looked at again. */
  function Protect(s: string, base: map<char, string>): string {
    if |s| == 0 then ""
    else (if s[0] in base then base[s[0]] else [s[0]]) + Protect(s[1..], base)
  }

  /** `t` begins with one of the entities of `base`. */
  predicate StartsWithEntity(t: string, base: map<char, string>) {
    exists c :: c in base && StartsWith(t, base[c])
  }

  /** Position `i` of `r` is safe: it is not a character the table escapes,
      or it is the `&` that opens one of the table's entities. */
  predicate SafeAt(r: string, i: int, base: map<char, string>)
    requires 0 <= i < |r|
  {
    r[i] !in base || (r[i] == '&' && StartsWithEntity(r[i..], base))
  }

  /** `s` contains none of the characters the table escapes. */
  predicate NoSpecial(s: string, base: map<char, string>) {
    forall i :: 0 <= i < |s| ==> s[i] !in base
  }

  /** The output of `_protect` holds no raw `<` or `>` (and, with the attribute
      table, no raw `"`); every `&` in it is the start of an entity. */
  lemma {:induction false} ProtectEscapes(s: string, base: map<char, string>)
    requires IsTable(base)
    ensures forall i :: 0 <= i < |Protect(s, base)| ==> SafeAt(Protect(s, base), i, base)
  {
    if |s| > 0 {
      var h := if s[0] in base then base[s[0]] else [s[0]];
      var u := Protect(s[1..], base);
      var r := Protect(s, base);
      assert r == h + u;
      ProtectEscapes(s[1..], base);
      forall i | 0 <= i < |r|
        ensures SafeAt(r, i, base)
      {
        if i < |h| {
          if s[0] in base {
            if i == 0 {
              assert StartsWith(r[i..], base[s[0]]);
            } else {
              assert r[i] == h[i];
            }
          }
        } else {
          assert SafeAt(u, i - |h|, base);
          assert r[i..] == u[i - |h|..];
        }
      }
    }
  }

  lemma {:induction false} ProtectLength(s: string, base: map<char, string>)
    requires IsTable(base)
    ensures |Protect(s, base)| >= |s|
    ensures |Protect(s, base)| == |s| ==> NoSpecial(s, base)
  {
    if |s| > 0 {
      ProtectLength(s[1..], base);
    }
  }

  /** `_protect` leaves a string unchanged exactly when it has nothing to escape. */
  lemma {:induction false} ProtectIdentity(s: string, base: map<char, string>)
    requires IsTable(base)
    ensures Protect(s, base) == s <==> NoSpecial(s, base)
  {
    ProtectLength(s, base);
    if NoSpecial(s, base) {
      ProtectNoSpecial(s, base);
    }
  }

  lemma {:induction false} ProtectNoSpecial(s: string, base: map<char, string>)
    requires NoSpecial(s, base)
    ensures Protect(s, base) == s
  {
    if |s| > 0 {
      ProtectNoSpecial(s[1..], base);
      assert [s[0]] + s[1..] == s;
    }
  }

  /** Replacing the predefined entities of section 4.6 of XML 1.0 (the four the
      tables introduce) by the characters they stand for, left to right. */
  function Unescape(t: string): string
    decreases |t|
  {
    if |t| == 0 then ""
    else if StartsWith(t, "&amp;") then "&" + Unescape(t[5..])
    else if StartsWith(t, "&lt;") then "<" + Unescape(t[4..])
    else if StartsWith(t, "&gt;") then ">" + Unescape(t[4..])
    else if StartsWith(t, "&quot;") then "\"" + Unescape(t[6..])
    else [t[0]] + Unescape(t[1..])
  }

  /** Decoding the entities of escaped text gives back the text, with either table. */
  lemma {:induction false} UnescapeProtect(s: string, base: map<char, string>)
    requires IsTable(base)
    ensures Unescape(Protect(s, base)) == s
  {
    if |s| > 0 {
      var u := Protect(s[1..], base);
      UnescapeProtect(s[1..], base);
      var h := if s[0] in base then base[s[0]] else [s[0]];
      assert Protect(s, base) == h + u;
      UnescapeStep(s[0], u, base);
      assert [s[0]] + s[1..] == s;
    }
  }

  /** The escaped form of one character decodes back to it, whatever follows. */
  lemma UnescapeStep(c: char, u: string, base: map<char, string>)
    requires IsTable(base)
    ensures Unescape((if c in base then base[c] else [c]) + u) == [c] + Unescape(u)
  {
    if c == '&' {
      assert base[c] == "&amp;";
      UnescapeEntity("&amp;", u);
    } else if c == '<' {
      assert base[c] == "&lt;";
      UnescapeEntity("&lt;", u);
    } else if c == '>' {
      assert base[c] == "&gt;";
      UnescapeEntity("&gt;", u);
    } else if c == '"' && base == AttribProtect {
      assert base[c] == "&quot;";
      UnescapeEntity("&quot;", u);
    } else {
      assert c !in base;
      var t := [c] + u;
      assert t[0] == c && t[1..] == u;
    }
  }

  lemma UnescapeEntity(e: string, u: string)
    requires e == "&amp;" || e == "&lt;" || e == "&gt;" || e == "&quot;"
    ensures e == "&amp;" ==> Unescape(e + u) == "&" + Unescape(u)
    ensures e == "&lt;" ==> Unescape(e + u) == "<" + Unescape(u)
    ensures e == "&gt;" ==> Unescape(e + u) == ">" + Unescape(u)
    ensures e == "&quot;" ==> Unescape(e + u) == "\"" + Unescape(u)
  {
    var t := e + u;
    assert t[..|e|] == e && t[|e|..] == u;
    assert t[1] == e[1];
  }

  /** Escaping is injective: distinct strings never escape to the same text. */
  lemma ProtectInjective(s1: string, s2: string, base: map<char, string>)
    requires IsTable(base)
    requires Protect(s1, base) == Protect(s2, base)
    ensures s1 == s2
  {
    UnescapeProtect(s1, base);
    UnescapeProtect(s2, base);
  }
}

=== FILE: layout.dfy ===
/**
  What the text `serialize_xml` produces looks like: where the prolog goes,
  when an element self-closes, how text, tails and comments are written and
  can be read back, which attributes appear and in what order, and that the
  result does not depend on the order of the attribute dictionary.
 */
module Layout {
  import opened Wrappers
  import opened Strings
  import opened Escape
  import opened AttribOrder
  import opened Tree
  import opened Writer

  // ---------------------------------------------------------------------
  // Element shape

  /** The open tag of a top-level call is its prolog followed by what a nested
      call writes. */
  lemma LeadProlog(cfg: Config, n: Node, indent: string, isRoot: bool)
    ensures Lead(cfg, n, indent, isRoot) == Prolog(n, isRoot) + Lead(cfg, n, indent, false)
  {
    var o := Open(cfg, n, indent);
    assert "" + o == o;
  }

  // ---------------------------------------------------------------------
  // Prolog

  /** With equal first-level and ordinary indent steps, the top-level call
      writes exactly what a nested call would, preceded by the XML declaration
      and the DOCTYPE line: the prolog is the only thing the root adds. */
  lemma PrologOnlyAtTop(cfg: Config, n: Node, indent: string)
    requires WellNamed(n)
    requires cfg.indentFirst == cfg.indentIncr
    ensures Ser(cfg, n, indent, true) == XmlDecl + DoctypeDecl(n) + Ser(cfg, n, indent, false)
  {
    LeadProlog(cfg, n, indent, true);
    assert ChildIndent(cfg, indent, true) == ChildIndent(cfg, indent, false);
    var p, l, m, t := Prolog(n, true), Lead(cfg, n, indent, false), Middle(cfg, n, indent, false), Trail(n, indent);
    var s1, s0 := Ser(cfg, n, indent, true), Ser(cfg, n, indent, false);
    assert Content(cfg, n, indent, true) == Content(cfg, n, indent, false);
    assert Middle(cfg, n, indent, true) == m;
    assert s1 == (p + l) + m + t;
    assert s0 == l + m + t;
    Assoc4(p, l, m, t);
    assert s1 == p + s0;
  }

  lemma Assoc4(a: string, b: string, c: string, d: string)
    ensures (a + b) + c + d == a + (b + c + d)
  {
  }

  /** A nested call writes no prolog: its text starts with its indent, where a
      comment line or the open tag begins. */
  lemma NestedStartsWithIndent(cfg: Config, n: Node, indent: string)
    requires WellNamed(n)
    ensures StartsWith(Ser(cfg, n, indent, false), indent)
  {
    LeadStartsWithIndent(cfg, n, indent);
    SerStartsWithLead(cfg, n, indent, false);
    StartsWithTrans(Ser(cfg, n, indent, false), Lead(cfg, n, indent, false), indent);
  }

  lemma SerStartsWithLead(cfg: Config, n: Node, indent: string, isRoot: bool)
    requires WellNamed(n)
    ensures StartsWith(Ser(cfg, n, indent, isRoot), Lead(cfg, n, indent, isRoot))
  {
    var l, m, t := Lead(cfg, n, indent, isRoot), Middle(cfg, n, indent, isRoot), Trail(n, indent);
    assert l + m + t == l + (m + t);
    ConcatEnds(l, m + t);
  }

  lemma LeadStartsWithIndent(cfg: Config, n: Node, indent: string)
    ensures StartsWith(Lead(cfg, n, indent, false), indent)
  {
    var spec := Get(n.attrs, ".comments");
    var c := Comments(indent, spec);
    CommentsShape(indent, spec);
    assert c == "" || StartsWith(c, indent);
    OpenStartsWith(Lead(cfg, n, indent, false), c, indent, OpenTag(cfg, n));
  }

  /** Comment lines that start with the indent, then the indent and the tag. */
  lemma OpenStartsWith(l: string, c: string, indent: string, rest: string)
    requires c == "" || StartsWith(c, indent)
    requires l == "" + (c + (indent + rest))
    ensures StartsWith(l, indent)
  {
    assert l == c + (indent + rest);
    if c == "" {
      assert l == indent + rest;
      ConcatEnds(indent, rest);
    } else {
      ConcatEnds(c, indent + rest);
      StartsWithTrans(l, c, indent);
    }
  }

  /** What the top-level call writes: the XML declaration, then the DOCTYPE
      line when the root has `.doctype`, and a final newline; with equal indent
      steps, the rest is exactly what a nested call writes. */
  lemma DocumentShape(cfg: Config, root: Node)
    requires WellNamed(root)
    ensures StartsWith(Ser(cfg, root, "", true), XmlDecl + DoctypeDecl(root))
    ensures EndsWith(Ser(cfg, root, "", true), "\n")
    ensures Get(root.attrs, ".doctype").Some? ==>
      StartsWith(Ser(cfg, root, "", true), XmlDecl + "<!DOCTYPE " + Get(root.attrs, ".doctype").value + ">\n")
    ensures cfg.indentFirst == cfg.indentIncr ==>
      Ser(cfg, root, "", true) == XmlDecl + DoctypeDecl(root) + Ser(cfg, root, "", false)
  {
    var s := Ser(cfg, root, "", true);
    var p := Prolog(root, true);
    LeadProlog(cfg, root, "", true);
    var l, m, t := Lead(cfg, root, "", false), Middle(cfg, root, "", true), Trail(root, "");
    assert s == (p + l) + m + t;
    Assoc4(p, l, m, t);
    ConcatEnds(p, l + m + t);
    assert StartsWith(s, p);
    EndsWithNewline(cfg, root, "", true);
    var d := Get(root.attrs, ".doctype");
    if d.Some? {
      assert p == XmlDecl + "<!DOCTYPE " + d.value + ">\n";
    }
    if cfg.indentFirst == cfg.indentIncr {
      PrologOnlyAtTop(cfg, root, "");
    }
  }

  /** Every element's text, at any depth, ends with a newline: the one after its
      tag and tail, or the last of its trailing comment lines. */
  lemma EndsWithNewline(cfg: Config, n: Node, indent: string, isRoot: bool)
    requires WellNamed(n)
    ensures EndsWith(Ser(cfg, n, indent, isRoot), "\n")
  {
    var after := Get(n.attrs, ".commentsafter");
    var c := Comments(indent, after);
    CommentsShape(indent, after);
    var t := Trail(n, indent);
    var tp := TailPart(n.tail) + "\n";
    assert t == tp + c;
    if c == "" {
      assert t == tp;
      ConcatEnds(TailPart(n.tail), "\n");
    } else {
      ConcatEnds(tp, c);
      EndsWithTrans(t, c, "\n");
    }
    var lm := Lead(cfg, n, indent, isRoot) + Middle(cfg, n, indent, isRoot);
    ConcatEnds(lm, t);
    EndsWithTrans(Ser(cfg, n, indent, isRoot), t, "\n");
  }

  /** `/>` follows the attributes exactly when the element has no children and
      no text worth writing; otherwise `>` does, and the element ends with its
      close tag followed by the tail and trailing comments. */
  lemma SelfClosingLaw(cfg: Config, n: Node, indent: string, isRoot: bool)
    requires WellNamed(n)
    ensures StartsWith(Ser(cfg, n, indent, isRoot), Lead(cfg, n, indent, isRoot))
    ensures StartsWith(Ser(cfg, n, indent, isRoot)[|Lead(cfg, n, indent, isRoot)|..], "/>") <==> SelfCloses(n)
    ensures !SelfCloses(n) ==>
      StartsWith(Ser(cfg, n, indent, isRoot)[|Lead(cfg, n, indent, isRoot)|..], ">")
      && EndsWith(Ser(cfg, n, indent, isRoot), CloseTag(n) + Trail(n, indent))
  {
    TagShape(Ser(cfg, n, indent, isRoot), Lead(cfg, n, indent, isRoot), Middle(cfg, n, indent, isRoot),
      Trail(n, indent), Content(cfg, n, indent, isRoot), CloseTag(n), SelfCloses(n));
  }

  /** The string facts behind `SelfClosingLaw`, for any lead, content, close
      tag and trail. */
  lemma TagShape(s: string, l: string, m: string, r: string, b: string, e: string, selfCloses: bool)
    requires s == l + m + r
    requires selfCloses ==> m == "/>"
    requires !selfCloses ==> m == ">" + b + e
    ensures StartsWith(s, l) && s[|l|..] == m + r
    ensures StartsWith(s[|l|..], "/>") <==> selfCloses
    ensures !selfCloses ==> StartsWith(s[|l|..], ">") && EndsWith(s, e + r)
  {
    assert s == l + (m + r);
    ConcatEnds(l, m + r);
    ConcatEnds(m, r);
    if !selfCloses {
      assert (m + r)[0] == '>';
      assert s == (l + ">" + b) + (e + r);
      ConcatEnds(l + ">" + b, e + r);
    }
  }

  /** With children, a newline follows the open tag and any text; the
      children come next, in order, each at the child indent, starting with it
      and ending with a newline; the close tag then stands on its own line,
      preceded by exactly the element's indent. */
  lemma ChildrenLayout(cfg: Config, n: Node, indent: string, isRoot: bool)
    requires WellNamed(n) && |n.children| > 0
    ensures Ser(cfg, n, indent, isRoot) ==
      (Lead(cfg, n, indent, isRoot) + ">" + TextPart(cfg, n, indent) + "\n")
      + SerChildren(cfg, n.children, ChildIndent(cfg, indent, isRoot))
      + (indent + CloseTag(n) + Trail(n, indent))
    ensures EndsWith(Ser(cfg, n, indent, isRoot), "\n" + indent + CloseTag(n) + Trail(n, indent))
    ensures forall i :: 0 <= i < |n.children| ==>
      StartsWith(Ser(cfg, n.children[i], ChildIndent(cfg, indent, isRoot), false), ChildIndent(cfg, indent, isRoot))
      && EndsWith(Ser(cfg, n.children[i], ChildIndent(cfg, indent, isRoot), false), "\n")
  {
    var ci := ChildIndent(cfg, indent, isRoot);
    SerInner(cfg, n, indent, isRoot);
    var open := Lead(cfg, n, indent, isRoot) + ">" + TextPart(cfg, n, indent);
    ConcatEnds(open, "\n");
    ChildrenEndWithNewline(cfg, n.children, ci);
    var foot := indent + CloseTag(n) + Trail(n, indent);
    CloseOnOwnLine(Ser(cfg, n, indent, isRoot), open + "\n", SerChildren(cfg, n.children, ci), foot);
    assert "\n" + foot == "\n" + indent + CloseTag(n) + Trail(n, indent);
    forall i | 0 <= i < |n.children|
      ensures StartsWith(Ser(cfg, n.children[i], ci, false), ci)
      ensures EndsWith(Ser(cfg, n.children[i], ci, false), "\n")
    {
      NestedStartsWithIndent(cfg, n.children[i], ci);
      EndsWithNewline(cfg, n.children[i], ci, false);
    }
  }

  /** A block that ends a line, then lines, then `foot`: `foot` starts a line. */
  lemma CloseOnOwnLine(s: string, head: string, kids: string, foot: string)
    requires s == head + kids + foot
    requires EndsWith(head, "\n")
    requires kids == "" || EndsWith(kids, "\n")
    ensures EndsWith(s, "\n" + foot)
  {
    var pre := head + kids;
    assert pre[|pre| - 1] == '\n' by {
      if |kids| == 0 {
        assert pre[|pre| - 1] == head[|head| - 1];
      } else {
        assert pre[|pre| - 1] == kids[|kids| - 1];
      }
    }
    var pre' := pre[..|pre| - 1];
    assert pre == pre' + "\n";
    assert s == pre' + ("\n" + foot);
    ConcatEnds(pre', "\n" + foot);
  }

  /** The children's text is empty or ends with a newline. */
  lemma {:induction false} ChildrenEndWithNewline(cfg: Config, cs: seq<Node>, indent: string)
    requires forall i :: 0 <= i < |cs| ==> WellNamed(cs[i])
    ensures |cs| > 0 ==> EndsWith(SerChildren(cfg, cs, indent), "\n")
  {
    if |cs| > 0 {
      var last := Ser(cfg, cs[|cs| - 1], indent, false);
      EndsWithNewline(cfg, cs[|cs| - 1], indent, false);
      var all := SerChildren(cfg, cs, indent);
      var init := SerChildren(cfg, cs[..|cs| - 1], indent);
      assert all == init + last;
      ConcatEnds(init, last);
      EndsWithTrans(all, last, "\n");
    }
  }

  // ---------------------------------------------------------------------
  // Comments

  /** Comment lines, and the independent description: the value with every
      comma turned into the end of one comment line and the start of the next. */
  lemma CommentsShape(indent: string, spec: Option<string>)
    ensures spec.None? ==> Comments(indent, spec) == ""
    ensures spec.Some? ==>
      Comments(indent, spec) == indent + "<!--" + ReplaceAll(spec.value, ',', "-->\n" + indent + "<!--") + "-->\n"
    ensures spec.Some? ==> StartsWith(Comments(indent, spec), indent) && EndsWith(Comments(indent, spec), "\n")
  {
    if spec.Some? {
      var sep := "-->\n" + indent + "<!--";
      ReplaceAllIsJoinSplit(spec.value, ',', sep);
      CommentLinesJoin(indent, Split(spec.value, ','));
      var c := Comments(indent, spec);
      var mid := ReplaceAll(spec.value, ',', sep);
      assert c == indent + ("<!--" + mid + "-->\n");
      assert c == (indent + "<!--" + mid + "-->") + "\n";
    }
  }

  lemma {:induction false} CommentLinesJoin(indent: string, parts: seq<string>)
    requires |parts| >= 1
    ensures CommentLines(indent, parts) ==
      indent + "<!--" + Join(parts, "-->\n" + indent + "<!--") + "-->\n"
  {
    var sep := "-->\n" + indent + "<!--";
    if |parts| > 1 {
      CommentLinesJoin(indent, parts[1..]);
      var j := Join(parts[1..], sep);
      assert CommentLines(indent, parts) ==
        (indent + "<!--" + parts[0] + "-->\n") + (indent + "<!--" + j + "-->\n");
      assert Join(parts, sep) == parts[0] + sep + j;
    } else {
      assert CommentLines(indent, parts) == CommentLine(indent, parts[0]) + CommentLines(indent, []);
    }
  }

  /** A comment value yields one line per comma-separated piece: when neither
      the indent nor the value holds a newline, the comment lines hold exactly
      one newline more than the value holds commas. */
  lemma CommentLineCount(indent: string, s: string)
    requires forall i :: 0 <= i < |indent| ==> indent[i] != '\n'
    requires forall i :: 0 <= i < |s| ==> s[i] != '\n'
    ensures Count(Comments(indent, Some(s)), '\n') == Count(s, ',') + 1
  {
    SplitAvoids(s, ',', '\n');
    CommentLinesNewlines(indent, Split(s, ','));
  }

  /** Each comment line ends in the one newline it holds. */
  lemma {:induction false} CommentLinesNewlines(indent: string, parts: seq<string>)
    requires forall i :: 0 <= i < |indent| ==> indent[i] != '\n'
    requires forall i, j :: 0 <= i < |parts| && 0 <= j < |parts[i]| ==> parts[i][j] != '\n'
    ensures Count(CommentLines(indent, parts), '\n') == |parts|
  {
    if |parts| > 0 {
      CommentLinesNewlines(indent, parts[1..]);
      var p := parts[0];
      assert forall j :: 0 <= j < |p| ==> p[j] != '\n' by {
        forall j | 0 <= j < |p| ensures p[j] != '\n' {
          assert parts[0][j] == p[j];
        }
      }
      CountAbsent(indent, '\n');
      CountAbsent(p, '\n');
      CountAppend(indent, "<!--", '\n');
      CountAppend(indent + "<!--", p, '\n');
      CountAppend(indent + "<!--" + p, "-->\n", '\n');
      CountAppend(CommentLine(indent, p), CommentLines(indent, parts[1..]), '\n');
    }
  }

  // ---------------------------------------------------------------------
  // Text and tail

  /** Reads the element text back from what `TextPart` wrote: strips the
      CDATA markers and the indent inserted after each newline, or decodes
      the entities and drops the indent `indentML` inserted. */
  function DecodeText(cfg: Config, tag: string, indent: string, w: string): string {
    if tag in cfg.takesCData then
      var pre, suf := CDataOpen(indent), CDataClose(indent);
      if |pre| + |suf| <= |w| && StartsWith(w, pre) && EndsWith(w, suf)
      then Uninsert(w[|pre|..|w| - |suf|], '\n', "\t" + indent)
      else w
    else if cfg.indentML then Uninsert(Unescape(w), '\n', indent)
    else Unescape(w)
  }

  /** Text worth writing is written in full, never stripped, and can be read
      back; blank text is not written at all. For a CDATA tag the text sits
      between `<![CDATA[`, a newline, a tab and the indent, and a newline, the
      indent and `]]>`. */
  lemma TextRoundTrip(cfg: Config, n: Node, indent: string)
    ensures !HasContent(n.text) ==> TextPart(cfg, n, indent) == ""
    ensures HasContent(n.text) ==> DecodeText(cfg, n.tag, indent, TextPart(cfg, n, indent)) == n.text.value
    ensures HasContent(n.text) && n.tag in cfg.takesCData ==>
      StartsWith(TextPart(cfg, n, indent), "<![CDATA[\n\t" + indent)
      && EndsWith(TextPart(cfg, n, indent), "\n" + indent + "]]>")
  {
    if HasContent(n.text) {
      var t := n.text.value;
      if n.tag in cfg.takesCData {
        var pre, suf := CDataOpen(indent), CDataClose(indent);
        var body := ReplaceAll(t, '\n', "\n\t" + indent);
        var w := pre + body + suf;
        assert TextPart(cfg, n, indent) == w;
        ConcatEnds(pre + body, suf);
        ConcatEnds(pre, body);
        StartsWithTrans(w, pre + body, pre);
        assert w[|pre|..|w| - |suf|] == body;
        assert "\n\t" + indent == ['\n'] + ("\t" + indent);
        UninsertReplaceAll(t, '\n', "\t" + indent);
      } else {
        var t' := if cfg.indentML then ReplaceAll(t, '\n', "\n" + indent) else t;
        UnescapeProtect(t', ElementProtect);
        if cfg.indentML {
          assert "\n" + indent == ['\n'] + indent;
          UninsertReplaceAll(t, '\n', indent);
        }
      }
    }
  }

  /** Outside a CDATA tag the written text holds no raw `<` or `>`, and each
      `&` in it opens an entity. */
  lemma TextEscaped(cfg: Config, n: Node, indent: string)
    requires n.tag !in cfg.takesCData
    ensures forall i :: 0 <= i < |TextPart(cfg, n, indent)| ==>
      SafeAt(TextPart(cfg, n, indent), i, ElementProtect)
  {
    if HasContent(n.text) {
      var t := n.text.value;
      ProtectEscapes(if cfg.indentML then ReplaceAll(t, '\n', "\n" + indent) else t, ElementProtect);
    }
  }

  /** A tail worth writing is written escaped and can be decoded back; a blank
      one is not written. */
  lemma TailRoundTrip(n: Node)
    ensures !HasContent(n.tail) ==> TailPart(n.tail) == ""
    ensures HasContent(n.tail) ==> Unescape(TailPart(n.tail)) == n.tail.value
    ensures forall i :: 0 <= i < |TailPart(n.tail)| ==> SafeAt(TailPart(n.tail), i, ElementProtect)
  {
    if HasContent(n.tail) {
      UnescapeProtect(n.tail.value, ElementProtect);
      ProtectEscapes(n.tail.value, ElementProtect);
    }
  }

  // ---------------------------------------------------------------------
  // Attributes

  /** Every item of the list, written ` k="v"`. */
  function RenderAll(s: seq<Attr>): string {
    if |s| == 0 then "" else AttrItem(s[0]) + RenderAll(s[1..])
  }

  lemma {:induction false} RenderSortedContent(s: seq<Attr>)
    ensures RenderSorted(s) == RenderAll(ContentAttrs(s))
  {
    if |s| > 0 {
      RenderSortedContent(s[1..]);
      ContentAttrsUnfold(s);
      var c := ContentAttrs(s[1..]);
      if IsMeta(s[0].0) {
        assert ContentAttrs(s) == c;
        assert RenderSorted(s) == "" + RenderSorted(s[1..]);
      } else {
        assert ContentAttrs(s) == [s[0]] + c;
        assert ([s[0]] + c)[1..] == c;
        assert RenderAll([s[0]] + c) == AttrItem(s[0]) + RenderAll(c);
      }
    }
  }

  lemma {:induction false} ContentAttrsIdempotent(a: seq<Attr>)
    ensures ContentAttrs(ContentAttrs(a)) == ContentAttrs(a)
  {
    if |a| > 0 {
      ContentAttrsIdempotent(a[1..]);
      ContentAttrsUnfold(a);
      var c := ContentAttrs(a[1..]);
      if !IsMeta(a[0].0) {
        ContentAttrsUnfold([a[0]] + c);
        assert ([a[0]] + c)[1..] == c;
      } else {
        assert ContentAttrs(a) == c;
      }
    }
  }

  /** The open tag carries exactly the content attributes, each as ` k="v"`
      with its value unescaped, sorted by rank and then name; metadata keys
      neither appear nor change what does. */
  lemma AttributesWritten(order: map<string, int>, attrs: seq<Attr>)
    ensures AttrText(order, attrs) == RenderAll(SortAttrs(order, ContentAttrs(attrs)))
    ensures AttrText(order, attrs) == AttrText(order, ContentAttrs(attrs))
    ensures Sorted(order, SortAttrs(order, ContentAttrs(attrs)))
    ensures multiset(SortAttrs(order, ContentAttrs(attrs))) == multiset(ContentAttrs(attrs))
  {
    RenderSortedContent(SortAttrs(order, attrs));
    SortThenFilter(order, attrs);
    var c := ContentAttrs(attrs);
    RenderSortedContent(SortAttrs(order, c));
    SortThenFilter(order, c);
    ContentAttrsIdempotent(attrs);
  }

  // ---------------------------------------------------------------------
  // Independence from the dictionary's order

  /** Two trees that differ only in the order their dictionaries hold their
      attributes. */
  predicate SameUpToAttrOrder(n1: Node, n2: Node)
    decreases n1
  {
    && n1.tag == n2.tag && n1.text == n2.text && n1.tail == n2.tail
    && multiset(n1.attrs) == multiset(n2.attrs) && DistinctNames(n1.attrs)
    && |n1.children| == |n2.children|
    && forall i :: 0 <= i < |n1.children| ==> SameUpToAttrOrder(n1.children[i], n2.children[i])
  }

  lemma NamesNonEmptyPermutation(a1: seq<Attr>, a2: seq<Attr>)
    requires multiset(a1) == multiset(a2) && NamesNonEmpty(a1)
    ensures NamesNonEmpty(a2)
  {
    forall i | 0 <= i < |a2|
      ensures |a2[i].0| > 0
    {
      assert a2[i] in multiset(a1);
    }
  }

  /** The serialized text of a tree does not depend on the order in which its
      attribute dictionaries hold their entries. */
  lemma InsertionOrderIrrelevant(cfg: Config, n1: Node, n2: Node, indent: string, isRoot: bool)
    requires SameUpToAttrOrder(n1, n2) && WellNamed(n1)
    ensures WellNamed(n2)
    ensures Ser(cfg, n1, indent, isRoot) == Ser(cfg, n2, indent, isRoot)
    decreases n1, 1
  {
    var ci := ChildIndent(cfg, indent, isRoot);
    NamesNonEmptyPermutation(n1.attrs, n2.attrs);
    ChildrenIrrelevant(cfg, n1.children, n2.children, ci);
    assert WellNamed(n2);
    EdgesIrrelevant(cfg, n1, n2, indent, isRoot);
    MiddleIrrelevant(cfg, n1, n2, indent, isRoot);
  }

  lemma MiddleIrrelevant(cfg: Config, n1: Node, n2: Node, indent: string, isRoot: bool)
    requires WellNamed(n1) && WellNamed(n2)
    requires n1.tag == n2.tag && n1.text == n2.text && |n1.children| == |n2.children|
    requires SerChildren(cfg, n1.children, ChildIndent(cfg, indent, isRoot)) == SerChildren(cfg, n2.children, ChildIndent(cfg, indent, isRoot))
    ensures Middle(cfg, n1, indent, isRoot) == Middle(cfg, n2, indent, isRoot)
  {
    TextPartIrrelevant(cfg, n1, n2, indent);
    assert Content(cfg, n1, indent, isRoot) == Content(cfg, n2, indent, isRoot);
  }

  lemma TextPartIrrelevant(cfg: Config, n1: Node, n2: Node, indent: string)
    requires n1.tag == n2.tag && n1.text == n2.text
    ensures TextPart(cfg, n1, indent) == TextPart(cfg, n2, indent)
  {
  }

  /** The open tag (with its prolog and leading comments) and the trail of an
      element depend on its dictionary's contents, not on their order. */
  lemma EdgesIrrelevant(cfg: Config, n1: Node, n2: Node, indent: string, isRoot: bool)
    requires n1.tag == n2.tag && n1.tail == n2.tail
    requires multiset(n1.attrs) == multiset(n2.attrs) && DistinctNames(n1.attrs)
    ensures Lead(cfg, n1, indent, isRoot) == Lead(cfg, n2, indent, isRoot)
    ensures Trail(n1, indent) == Trail(n2, indent)
  {
    PrologIrrelevant(n1, n2, isRoot);
    OpenIrrelevant(cfg, n1, n2, indent);
    GetIgnoresOrder(n1.attrs, n2.attrs, ".commentsafter");

  }

  lemma PrologIrrelevant(n1: Node, n2: Node, isRoot: bool)
    requires multiset(n1.attrs) == multiset(n2.attrs) && DistinctNames(n1.attrs)
    ensures Prolog(n1, isRoot) == Prolog(n2, isRoot)
  {
    GetIgnoresOrder(n1.attrs, n2.attrs, ".doctype");
    assert DoctypeDecl(n1) == DoctypeDecl(n2);
  }

  lemma OpenIrrelevant(cfg: Config, n1: Node, n2: Node, indent: string)
    requires n1.tag == n2.tag
    requires multiset(n1.attrs) == multiset(n2.attrs) && DistinctNames(n1.attrs)
    ensures Open(cfg, n1, indent) == Open(cfg, n2, indent)
  {
    GetIgnoresOrder(n1.attrs, n2.attrs, ".comments");
    SortIgnoresInsertionOrder(cfg.attributeOrder, n1.attrs, n2.attrs);
    assert AttrText(cfg.attributeOrder, n1.attrs) == AttrText(cfg.attributeOrder, n2.attrs);
    assert OpenTag(cfg, n1) == OpenTag(cfg, n2);
  }

  lemma {:induction false} ChildrenIrrelevant(cfg: Config, cs1: seq<Node>, cs2: seq<Node>, indent: string)
    requires |cs1| == |cs2|
    requires forall i :: 0 <= i < |cs1| ==> SameUpToAttrOrder(cs1[i], cs2[i]) && WellNamed(cs1[i])
    ensures forall i :: 0 <= i < |cs2| ==> WellNamed(cs2[i])
    ensures SerChildren(cfg, cs1, indent) == SerChildren(cfg, cs2, indent)
    decreases cs1, 0
  {
    if |cs1| > 0 {
      var k := |cs1| - 1;
      PrefixesAlike(cs1, cs2, k);
      ChildrenIrrelevant(cfg, cs1[..k], cs2[..k], indent);
      InsertionOrderIrrelevant(cfg, cs1[k], cs2[k], indent, false);
      LastChildAlike(cfg, cs1, cs2, indent);
    }
  }

  lemma PrefixesAlike(cs1: seq<Node>, cs2: seq<Node>, k: int)
    requires |cs1| == |cs2| && 0 <= k <= |cs1|
    requires forall i :: 0 <= i < |cs1| ==> SameUpToAttrOrder(cs1[i], cs2[i]) && WellNamed(cs1[i])
    ensures |cs1[..k]| == |cs2[..k]|
    ensures forall i :: 0 <= i < k ==> SameUpToAttrOrder(cs1[..k][i], cs2[..k][i]) && WellNamed(cs1[..k][i])
  {
    forall i | 0 <= i < k
      ensures SameUpToAttrOrder(cs1[..k][i], cs2[..k][i]) && WellNamed(cs1[..k][i])
    {
      assert cs1[..k][i] == cs1[i] && cs2[..k][i] == cs2[i];
    }
  }

  /** Every element of the list is well named. */
  predicate AllWellNamed(cs: seq<Node>) {
    forall i :: 0 <= i < |cs| ==> WellNamed(cs[i])
  }

  /** Equal texts for the earlier children and for the last child give equal
      texts for all of them. */
  lemma LastChildAlike(cfg: Config, cs1: seq<Node>, cs2: seq<Node>, indent: string)
    requires |cs1| == |cs2| > 0
    requires AllWellNamed(cs1)
    requires AllWellNamed(cs2[..|cs2| - 1]) && WellNamed(cs2[|cs2| - 1])
    requires SerChildren(cfg, cs1[..|cs1| - 1], indent) == SerChildren(cfg, cs2[..|cs2| - 1], indent)
    requires Ser(cfg, cs1[|cs1| - 1], indent, false) == Ser(cfg, cs2[|cs2| - 1], indent, false)
    ensures AllWellNamed(cs2)
    ensures SerChildren(cfg, cs1, indent) == SerChildren(cfg, cs2, indent)
  {
    LastWellNamed(cs2);
    SerChildrenLast(cfg, cs1, indent);
    SerChildrenLast(cfg, cs2, indent);
  }

  lemma LastWellNamed(cs: seq<Node>)
    requires |cs| > 0
    requires AllWellNamed(cs[..|cs| - 1]) && WellNamed(cs[|cs| - 1])
    ensures AllWellNamed(cs)
  {
    forall i | 0 <= i < |cs| - 1
      ensures WellNamed(cs[i])
    {
      assert cs[..|cs| - 1][i] == cs[i];
    }
  }

  lemma SerChildrenLast(cfg: Config, cs: seq<Node>, indent: string)
    requires |cs| > 0
    requires forall i :: 0 <= i < |cs| ==> WellNamed(cs[i])
    ensures SerChildren(cfg, cs, indent) == SerChildren(cfg, cs[..|cs| - 1], indent) + Ser(cfg, cs[|cs| - 1], indent, false)
  {
  }
}

=== FILE: strings.dfy ===
/**
  The string primitives the serializer relies on, written out with the
  semantics of the Python 2 built-ins it calls: `str.strip`, `str.split`
  with a one-character separator, `str.replace` of one character, and
  `"".join`.
 */
module Strings {

  /** The characters Python 2's `str.strip()` removes when called with no
      argument: space, tab, newline, carriage return, vertical tab, form feed. */
  predicate IsSpace(c: char) {
    c == ' ' || c == '\t' || c == '\n' || c == '\r' || c == '\U{000B}' || c == '\U{000C}'
  }

  /** `not s.strip()`: the string is empty or made only of whitespace. */
  predicate IsBlank(s: string) {
    forall i :: 0 <= i < |s| ==> IsSpace(s[i])
  }

  function TrimLeft(s: string): (r: string)
    ensures |r| <= |s| && r == s[|s| - |r|..]
    ensures |r| > 0 ==> !IsSpace(r[0])
    ensures forall i :: 0 <= i < |s| - |r| ==> IsSpace(s[i])
  {
    if |s| > 0 && IsSpace(s[0]) then TrimLeft(s[1..]) else s
  }

  function TrimRight(s: string): (r: string)
    ensures |r| <= |s| && r == s[..|r|]
    ensures |r| > 0 ==> !IsSpace(r[|r| - 1])
    ensures forall i :: |r| <= i < |s| ==> IsSpace(s[i])
  {
    if |s| > 0 && IsSpace(s[|s| - 1]) then TrimRight(s[..|s| - 1]) else s
  }

  /** Python's `s.strip()`: leading and trailing whitespace removed. */
  function Strip(s: string): string {
    TrimRight(TrimLeft(s))
  }

  /** `s.strip()` is the empty string exactly when `s` is blank, so the
      Python code's truthiness test `t and t.strip()` is `!IsBlank(t)`. */
  lemma StripEmptyIffBlank(s: string)
    ensures Strip(s) == "" <==> IsBlank(s)
  {
    if IsBlank(s) {
      BlankTrimsAway(s);
    } else {
      var i :| 0 <= i < |s| && !IsSpace(s[i]);
      TrimKeepsNonSpace(s, i);
    }
  }

  lemma BlankTrimsAway(s: string)
    requires IsBlank(s)
    ensures TrimLeft(s) == ""
  {
    var l := TrimLeft(s);
    if |l| > 0 {
      assert false;
    }
  }

  lemma TrimKeepsNonSpace(s: string, i: int)
    requires 0 <= i < |s| && !IsSpace(s[i])
    ensures Strip(s) != ""
  {
    var l := TrimLeft(s);
    var k := i - (|s| - |l|);
    assert 0 <= k < |l| && l[k] == s[i];
    var r := TrimRight(l);
    if |r| == 0 {
      assert false;
    }
  }

  /** Number of occurrences of `c` in `s`. */
  function Count(s: string, c: char): nat {
    if |s| == 0 then 0 else (if s[0] == c then 1 else 0) + Count(s[1..], c)
  }

  lemma {:induction false} CountAppend(a: string, b: string, c: char)
    ensures Count(a + b, c) == Count(a, c) + Count(b, c)
  {
    if |a| > 0 {
      CountAppend(a[1..], b, c);
      assert (a + b)[1..] == a[1..] + b;
    } else {
      assert a + b == b;
    }
  }

  /** A character that does not occur is counted zero times. */
  lemma {:induction false} CountAbsent(s: string, c: char)
    requires forall i :: 0 <= i < |s| ==> s[i] != c
    ensures Count(s, c) == 0
  {
    if |s| > 0 {
      CountAbsent(s[1..], c);
    }
  }

  /** Python's `s.split(sep)` for a one-character separator: the pieces
      between separators, so `k` separators give `k + 1` pieces and the
      empty string gives one empty piece. */
  function Split(s: string, sep: char): (parts: seq<string>)
    ensures |parts| == Count(s, sep) + 1
    ensures forall i, j :: 0 <= i < |parts| && 0 <= j < |parts[i]| ==> parts[i][j] != sep
  {
    if |s| == 0 then [""]
    else
      var rest := Split(s[1..], sep);
      if s[0] == sep then [""] + rest
      else [[s[0]] + rest[0]] + rest[1..]
  }

  /** A character absent from a string is absent from every piece of its split. */
  lemma {:induction false} SplitAvoids(s: string, sep: char, d: char)
    requires forall i :: 0 <= i < |s| ==> s[i] != d
    ensures forall i, j :: 0 <= i < |Split(s, sep)| && 0 <= j < |Split(s, sep)[i]| ==> Split(s, sep)[i][j] != d
  {
    if |s| > 0 {
      SplitAvoids(s[1..], sep, d);
      var rest := Split(s[1..], sep);
      var parts := Split(s, sep);
      if s[0] != sep {
        assert parts == [[s[0]] + rest[0]] + rest[1..];
        forall i, j | 0 <= i < |parts| && 0 <= j < |parts[i]|
          ensures parts[i][j] != d
        {
          if i == 0 {
            if j > 0 {
              assert parts[0][j] == rest[0][j - 1];
            }
          } else {
            assert parts[i] == rest[i];
          }
        }
      } else {
        assert parts == [""] + rest;
        forall i, j | 0 <= i < |parts| && 0 <= j < |parts[i]|
          ensures parts[i][j] != d
        {
          assert parts[i] == rest[i - 1];
        }
      }
    }
  }

  /** Python's `sep.join(parts)`. */
  function Join(parts: seq<string>, sep: string): string {
    if |parts| == 0 then ""
    else if |parts| == 1 then parts[0]
    else parts[0] + sep + Join(parts[1..], sep)
  }

  /** Joining the pieces of a split with the separator gives back the string. */
  lemma {:induction false} JoinSplit(s: string, sep: char)
    ensures Join(Split(s, sep), [sep]) == s
  {
    if |s| > 0 {
      var rest := Split(s[1..], sep);
      JoinSplit(s[1..], sep);
      if s[0] == sep {
        assert Split(s, sep) == [""] + rest;
      } else {
        var parts := Split(s, sep);
        assert parts == [[s[0]] + rest[0]] + rest[1..];
        if |rest| == 1 {
          assert Join(parts, [sep]) == [s[0]] + rest[0];
        } else {
          assert parts[1..] == rest[1..];
          assert Join(parts, [sep]) == [s[0]] + (rest[0] + [sep] + Join(rest[1..], [sep]));
        }
      }
    }
  }

  /** Splitting a join of separator-free pieces gives back the pieces. */
  lemma {:induction false} SplitJoin(parts: seq<string>, sep: char)
    requires |parts| >= 1
    requires forall i, j :: 0 <= i < |parts| && 0 <= j < |parts[i]| ==> parts[i][j] != sep
    ensures Split(Join(parts, [sep]), sep) == parts
  {
    if |parts| == 1 {
      SplitNoSep(parts[0], sep);
    } else {
      SplitJoin(parts[1..], sep);
      var tail := Join(parts[1..], [sep]);
      SplitPrefix(parts[0], [sep] + tail, sep);
      assert Join(parts, [sep]) == parts[0] + ([sep] + tail);
      assert ([sep] + tail)[1..] == tail;
    }
  }

  /** A string without the separator splits into itself. */
  lemma {:induction false} SplitNoSep(s: string, sep: char)
    requires forall j :: 0 <= j < |s| ==> s[j] != sep
    ensures Split(s, sep) == [s]
  {
    if |s| > 0 {
      SplitNoSep(s[1..], sep);
      assert [s[0]] + s[1..] == s;
    }
  }

  /** A separator-free prefix glues onto the first piece of what follows it. */
  lemma {:induction false} SplitPrefix(p: string, s: string, sep: char)
    requires forall j :: 0 <= j < |p| ==> p[j] != sep
    requires |s| > 0 && s[0] == sep
    ensures Split(p + s, sep) == [p] + Split(s[1..], sep)
  {
    if |p| == 0 {
      assert p + s == s;
    } else {
      SplitPrefix(p[1..], s, sep);
      assert (p + s)[1..] == p[1..] + s;
      assert [p[0]] + p[1..] == p;
    }
  }

  /** Python's `s.replace(c, r)` for a one-character pattern. */
  function ReplaceAll(s: string, c: char, r: string): (t: string)
    ensures |t| == |s| + Count(s, c) * (|r| - 1)
  {
    if |s| == 0 then ""
    else (if s[0] == c then r else [s[0]]) + ReplaceAll(s[1..], c, r)
  }

  /** Replacing a character is splitting on it and joining with the replacement. */
  lemma {:induction false} ReplaceAllIsJoinSplit(s: string, c: char, r: string)
    ensures ReplaceAll(s, c, r) == Join(Split(s, c), r)
  {
    if |s| > 0 {
      ReplaceAllIsJoinSplit(s[1..], c, r);
      var rest := Split(s[1..], c);
      if s[0] == c {
        assert Split(s, c) == [""] + rest;
      } else {
        var parts := Split(s, c);
        assert parts == [[s[0]] + rest[0]] + rest[1..];
        if |rest| > 1 {
          assert parts[1..] == rest[1..];
        }
      }
    }
  }

  /** Undoes `ReplaceAll(t, c, [c] + w)`: after each `c`, drops the `w` that follows it. */
  function Uninsert(s: string, c: char, w: string): string
    decreases |s|
  {
    if |s| == 0 then ""
    else if s[0] == c && |w| <= |s| - 1 && s[1..1 + |w|] == w then [c] + Uninsert(s[1 + |w|..], c, w)
    else [s[0]] + Uninsert(s[1..], c, w)
  }

  /** Inserting `w` after every `c` loses nothing: it can always be undone. */
  lemma {:induction false} UninsertReplaceAll(t: string, c: char, w: string)
    ensures Uninsert(ReplaceAll(t, c, [c] + w), c, w) == t
  {
    if |t| > 0 {
      var rest := ReplaceAll(t[1..], c, [c] + w);
      UninsertReplaceAll(t[1..], c, w);
      if t[0] == c {
        var s := [c] + w + rest;
        assert ReplaceAll(t, c, [c] + w) == s;
        assert s[1..1 + |w|] == w;
        assert s[1 + |w|..] == rest;
      } else {
        var s := [t[0]] + rest;
        assert ReplaceAll(t, c, [c] + w) == s;
        assert s[1..] == rest;
      }
    }
  }

  /** The concatenation of a sequence of strings, `"".join(ss)`. */
  function Flatten(ss: seq<string>): string {
    if |ss| == 0 then "" else Flatten(ss[..|ss| - 1]) + ss[|ss| - 1]
  }

  lemma {:induction false} FlattenAppend(a: seq<string>, b: seq<string>)
    ensures Flatten(a + b) == Flatten(a) + Flatten(b)
    decreases |b|
  {
    if |b| > 0 {
      FlattenAppend(a, b[..|b| - 1]);
      assert (a + b)[..|a + b| - 1] == a + b[..|b| - 1];
    } else {
      assert a + b == a;
    }
  }

  predicate StartsWith(s: string, p: string) {
    |p| <= |s| && s[..|p|] == p
  }

  predicate EndsWith(s: string, p: string) {
    |p| <= |s| && s[|s| - |p|..] == p
  }

  /** A concatenation starts with its left part and ends with its right part. */
  lemma ConcatEnds(a: string, b: string)
    ensures StartsWith(a + b, a) && (a + b)[|a|..] == b
    ensures EndsWith(a + b, b) && (a + b)[..|a|] == a
  {
  }

  lemma StartsWithTrans(s: string, p: string, q: string)
    requires StartsWith(s, p) && StartsWith(p, q)
    ensures StartsWith(s, q)
  {
    assert s[..|q|] == p[..|p|][..|q|];
  }

  lemma EndsWithTrans(s: string, p: string, q: string)
    requires EndsWith(s, p) && EndsWith(p, q)
    ensures EndsWith(s, q)
  {
    assert s[|s| - |q|..] == s[|s| - |p|..][|p| - |q|..];
  }
}

=== FILE: tree.dfy ===
/**
  The element tree `serialize_xml` walks: the parts of an ElementTree element
  it reads (`tag`, `attrib`, `text`, `tail` and the children), and lookup of the
  dot-prefixed metadata keys in the attribute dictionary.
 */
module Tree {
  import opened Wrappers
  import opened AttribOrder

  /** An element. `attrs` holds the attribute dictionary as (name, value) pairs in
      whatever order the dictionary happens to hold them; the order in which they
      are written does not depend on it (`Layout.InsertionOrderIrrelevant`).
      A dictionary holds each name once; sequences that repeat a name lie
      outside genlib's domain, and the properties that depend on it
      require `DistinctNames`. */
  datatype Node = Node(
    tag: string,
    attrs: seq<Attr>,
    text: Option<string>,
    tail: Option<string>,
    children: seq<Node>)

  /** `attrib[k]` if `k in attrib`, else nothing. */
  function Get(attrs: seq<Attr>, k: string): (r: Option<string>)
    ensures r.Some? <==> exists i :: 0 <= i < |attrs| && attrs[i].0 == k
    ensures r.Some? ==> (k, r.value) in attrs
  {
    if |attrs| == 0 then None
    else if attrs[0].0 == k then Some(attrs[0].1)
    else Get(attrs[1..], k)
  }

  /** In a dictionary a lookup finds the one pair with that name, wherever it sits. */
  lemma {:induction false} GetFindsPair(attrs: seq<Attr>, k: string, v: string)
    requires DistinctNames(attrs)
    requires (k, v) in attrs
    ensures Get(attrs, k) == Some(v)
  {
    if attrs[0] != (k, v) {
      assert (k, v) in attrs[1..];
      var p :| 0 <= p < |attrs[1..]| && attrs[1..][p] == (k, v);
      assert attrs[0].0 != attrs[p + 1].0;
      GetFindsPair(attrs[1..], k, v);
    }
  }

  /** Looking a name up does not depend on the order of the dictionary. */
  lemma GetIgnoresOrder(a1: seq<Attr>, a2: seq<Attr>, k: string)
    requires multiset(a1) == multiset(a2)
    requires DistinctNames(a1)
    ensures Get(a1, k) == Get(a2, k)
  {
    DistinctNamesPermutation(a1, a2);
    var r1, r2 := Get(a1, k), Get(a2, k);
    if r1.Some? {
      assert (k, r1.value) in multiset(a2);
      GetFindsPair(a2, k, r1.value);
    }
    if r2.Some? {
      assert (k, r2.value) in multiset(a1);
      GetFindsPair(a1, k, r2.value);
    }
  }

  /** Every attribute name is non-empty. The Python code tests `k[0]` for each name,
      which raises `IndexError` on an empty one. */
  predicate NamesNonEmpty(attrs: seq<Attr>) {
    forall i :: 0 <= i < |attrs| ==> |attrs[i].0| > 0
  }

  /** `NamesNonEmpty` holds throughout the tree. */
  predicate WellNamed(n: Node)
    decreases n
  {
    NamesNonEmpty(n.attrs) && forall i :: 0 <= i < |n.children| ==> WellNamed(n.children[i])
  }
}

=== FILE: wrappers.dfy ===
/** Optional values and results with an error. */
module Wrappers {

  /** A value that may be absent, as Python's `None` for a missing text or tail. */
  datatype Option<+T> = None | Some(value: T)

  /** The outcome of an operation that either yields a value or raises. */
  datatype Result<+R, +E> = Success(value: R) | Failure(error: E)
}

=== FILE: writer.dfy ===
/**
  `ETWriter.serialize_xml`: the pretty printer that turns an element tree into
  XML text. `Ser` is the text one call produces; `WriteXml` follows genlib's
  chunked calls of `write` and is proved to deliver exactly that text.
 */
module Writer {
  import opened Wrappers
  import opened Strings
  import opened Escape
  import opened AttribOrder
  import opened Tree

  /** The options an `ETWriter` is constructed with (the namespace table
      serves only the namespace-qualifying path, which is not modelled). */
  datatype Config = Config(
    attributeOrder: map<string, int>,
    takesCData: set<string>,
    indentIncr: string,
    indentFirst: string,
    indentML: bool)

  /** The XML declaration written before the root element. */
  const XmlDecl: string := "<?xml version=\"1.0\" encoding=\"UTF-8\"?>\n"

  /** The document type declaration taken from the root's `.doctype` metadata. */
  function DoctypeDecl(n: Node): string {
    match Get(n.attrs, ".doctype")
    case None => ""
    case Some(d) => "<!DOCTYPE " + d + ">\n"
  }

  /** What the top-level call writes before the root element; nothing for a child. */
  function Prolog(n: Node, isRoot: bool): string {
    if isRoot then XmlDecl + DoctypeDecl(n) else ""
  }

  /** One comment line at the element's indent. */
  function CommentLine(indent: string, c: string): string {
    indent + "<!--" + c + "-->\n"
  }

  function CommentLines(indent: string, parts: seq<string>): string {
    if |parts| == 0 then "" else CommentLine(indent, parts[0]) + CommentLines(indent, parts[1..])
  }

  /** The lines for a `.comments` or `.commentsafter` value: one per
      comma-separated piece; nothing when the key is absent. */
  function Comments(indent: string, spec: Option<string>): string {
    match spec
    case None => ""
    case Some(s) => CommentLines(indent, Split(s, ','))
  }

  /** ` k="v"` with the value as it is, unescaped. */
  function AttrItem(a: Attr): string {
    " " + a.0 + "=\"" + a.1 + "\""
  }

  /** Writes the items of a sorted list, skipping metadata names. */
  function RenderSorted(s: seq<Attr>): string {
    if |s| == 0 then ""
    else (if IsMeta(s[0].0) then "" else AttrItem(s[0])) + RenderSorted(s[1..])
  }

  /** The attributes of the open tag: every name in comparator order, the
      dot-prefixed ones left out. */
  function AttrText(order: map<string, int>, attrs: seq<Attr>): string {
    RenderSorted(SortAttrs(order, attrs))
  }

  /** `t and t.strip()`: the string is present and not only whitespace. */
  predicate HasContent(t: Option<string>) {
    t.Some? && !IsBlank(t.value)
  }

  /** The element is written as `<tag .../>`: no children and no text worth
      writing. Attributes, metadata included, play no part. */
  predicate SelfCloses(n: Node) {
    |n.children| == 0 && !HasContent(n.text)
  }

  /** The opening marker of a CDATA section for text at `indent`. */
  function CDataOpen(indent: string): string {
    "<![CDATA[\n\t" + indent
  }

  /** The closing marker of a CDATA section for text at `indent`. */
  function CDataClose(indent: string): string {
    "\n" + indent + "]]>"
  }

  /** The element's text as written after `>`. */
  function TextPart(cfg: Config, n: Node, indent: string): string {
    if !HasContent(n.text) then ""
    else if n.tag !in cfg.takesCData then
      var t := if cfg.indentML then ReplaceAll(n.text.value, '\n', "\n" + indent) else n.text.value;
      Protect(t, ElementProtect)
    else
      CDataOpen(indent) + ReplaceAll(n.text.value, '\n', "\n\t" + indent) + CDataClose(indent)
  }

  /** The element's tail as written after its tag. */
  function TailPart(tail: Option<string>): string {
    if HasContent(tail) then Protect(tail.value, ElementProtect) else ""
  }

  /** The indent of the children: one first-level step below the root, one
      ordinary step below any other element. */
  function ChildIndent(cfg: Config, indent: string, isRoot: bool): string {
    indent + (if isRoot then cfg.indentFirst else cfg.indentIncr)
  }

  /** `<tag` and the attributes. */
  function OpenTag(cfg: Config, n: Node): string {
    "<" + n.tag + AttrText(cfg.attributeOrder, n.attrs)
  }

  /** The leading comment lines and the indented open tag. */
  function Open(cfg: Config, n: Node, indent: string): string {
    Comments(indent, Get(n.attrs, ".comments")) + (indent + OpenTag(cfg, n))
  }

  /** Everything up to the end of the open tag's attributes. */
  function Lead(cfg: Config, n: Node, indent: string, isRoot: bool): string {
    Prolog(n, isRoot) + Open(cfg, n, indent)
  }

  function CloseTag(n: Node): string {
    "</" + n.tag + ">"
  }

  /** Everything after the close (or self-close) tag. */
  function Trail(n: Node, indent: string): string {
    TailPart(n.tail) + "\n" + Comments(indent, Get(n.attrs, ".commentsafter"))
  }

  /** The text `serialize_xml` writes for element `n` at `indent`. `isRoot`
      stands for both of genlib's tests: `base is None`, which writes the
      prolog, and `base == self.root`, which picks `indentFirst` for the
      children. They agree on every call except one that passes the root
      itself as `base`, which is not modelled. */
  function Ser(cfg: Config, n: Node, indent: string, isRoot: bool): string
    requires WellNamed(n)
    decreases n, 2
  {
    Lead(cfg, n, indent, isRoot) + Middle(cfg, n, indent, isRoot) + Trail(n, indent)
  }

  /** What follows the attributes of the open tag and precedes the tail:
      `/>`, or `>`, the content and the close tag. */
  function Middle(cfg: Config, n: Node, indent: string, isRoot: bool): string
    requires WellNamed(n)
    decreases n, 1
  {
    if SelfCloses(n) then "/>" else ">" + Content(cfg, n, indent, isRoot) + CloseTag(n)
  }

  /** Between `>` and the close tag: the text, then the children's block. */
  function Content(cfg: Config, n: Node, indent: string, isRoot: bool): string
    requires WellNamed(n)
    decreases n, 0
  {
    TextPart(cfg, n, indent)
    + (if |n.children| > 0
       then "\n" + SerChildren(cfg, n.children, ChildIndent(cfg, indent, isRoot)) + indent
       else "")
  }

  /** The children, in order, each written at `indent`. */
  function SerChildren(cfg: Config, cs: seq<Node>, indent: string): string
    requires forall i :: 0 <= i < |cs| ==> WellNamed(cs[i])
    decreases cs, 3
  {
    if |cs| == 0 then ""
    else SerChildren(cfg, cs[..|cs| - 1], indent) + Ser(cfg, cs[|cs| - 1], indent, false)
  }

  /** `Ser` for an element without children, regrouped as the one chunk it is written in. */
  lemma SerLeaf(cfg: Config, n: Node, indent: string, isRoot: bool)
    requires WellNamed(n) && |n.children| == 0
    ensures Ser(cfg, n, indent, isRoot) ==
      Lead(cfg, n, indent, isRoot)
      + (if SelfCloses(n) then "/>" else ">" + TextPart(cfg, n, indent) + CloseTag(n))
      + Trail(n, indent)
  {
    if !SelfCloses(n) {
      var t := TextPart(cfg, n, indent);
      assert Content(cfg, n, indent, isRoot) == t + "";
      assert t + "" == t;
      assert Middle(cfg, n, indent, isRoot) == ">" + t + CloseTag(n);
    }
  }

  /** `Ser` for an element with children, regrouped as the chunk before them,
      their text, and the chunk after them. */
  lemma SerInner(cfg: Config, n: Node, indent: string, isRoot: bool)
    requires WellNamed(n) && |n.children| > 0
    ensures Ser(cfg, n, indent, isRoot) ==
      (Lead(cfg, n, indent, isRoot) + ">" + TextPart(cfg, n, indent) + "\n")
      + SerChildren(cfg, n.children, ChildIndent(cfg, indent, isRoot))
      + (indent + CloseTag(n) + Trail(n, indent))
  {
    var l, t, c := Lead(cfg, n, indent, isRoot), TextPart(cfg, n, indent), SerChildren(cfg, n.children, ChildIndent(cfg, indent, isRoot));
    var e, r := CloseTag(n), Trail(n, indent);
    assert Content(cfg, n, indent, isRoot) == t + ("\n" + c + indent);
    assert Ser(cfg, n, indent, isRoot) == l + (">" + (t + ("\n" + c + indent)) + e) + r;
    Regroup(l, t, c, indent, e, r);
  }

  lemma Regroup(l: string, t: string, c: string, indent: string, e: string, r: string)
    ensures l + (">" + (t + ("\n" + c + indent)) + e) + r == (l + ">" + t + "\n") + c + (indent + e + r)
  {
  }

  lemma SerChildrenSnoc(cfg: Config, cs: seq<Node>, i: int, indent: string)
    requires 0 <= i < |cs|
    requires forall j :: 0 <= j <= i ==> WellNamed(cs[j])
    ensures SerChildren(cfg, cs[..i + 1], indent) == SerChildren(cfg, cs[..i], indent) + Ser(cfg, cs[i], indent, false)
    ensures WritesAll(cs[..i + 1]) == WritesAll(cs[..i]) + Writes(cs[i])
  {
    assert cs[..i + 1][..i] == cs[..i];
    assert cs[..i + 1][i] == cs[i];
  }

  /** The number of `write` calls for an element: one for an element without
      children; for one with children, one flush before them (`write(outstr)`
      ahead of the loop), theirs, and one at the end. */
  function Writes(n: Node): nat
    decreases n, 2
  {
    if |n.children| == 0 then 1 else 2 + WritesAll(n.children)
  }

  function WritesAll(cs: seq<Node>): nat
    decreases cs, 3
  {
    if |cs| == 0 then 0 else WritesAll(cs[..|cs| - 1]) + Writes(cs[|cs| - 1])
  }

  /** `serialize_xml` with `write` appending each chunk to a list (as
      `xmlitem.write_to_xml` appends it to a string). `ok` is false when an
      attribute name is empty, where the Python code raises. */
  method WriteXml(cfg: Config, n: Node, indent: string, isRoot: bool) returns (ok: bool, chunks: seq<string>)
    ensures ok <==> WellNamed(n)
    ensures ok ==> Flatten(chunks) == Ser(cfg, n, indent, isRoot)
    ensures ok ==> |chunks| == Writes(n)
    decreases n, 1
  {
    if !NamesNonEmpty(n.attrs) {
      return false, [];
    }
    var outstr := Lead(cfg, n, indent, isRoot);
    if |n.children| == 0 {
      if SelfCloses(n) {
        outstr := outstr + "/>";
      } else {
        outstr := outstr + (">" + TextPart(cfg, n, indent) + CloseTag(n));
      }
      outstr := outstr + Trail(n, indent);
      LeafWrite(cfg, n, indent, isRoot);
      return true, [outstr];
    }
    outstr := outstr + ">" + TextPart(cfg, n, indent) + "\n";
    var body;
    ok, body := WriteChildren(cfg, n.children, ChildIndent(cfg, indent, isRoot));
    chunks := [outstr] + body;
    if ok {
      chunks := chunks + [indent + CloseTag(n) + Trail(n, indent)];
      InnerWrite(cfg, n, indent, isRoot, body);
    }
  }

  lemma LeafWrite(cfg: Config, n: Node, indent: string, isRoot: bool)
    requires NamesNonEmpty(n.attrs) && |n.children| == 0
    ensures WellNamed(n) && Writes(n) == 1
    ensures Flatten([Lead(cfg, n, indent, isRoot)
      + (if SelfCloses(n) then "/>" else ">" + TextPart(cfg, n, indent) + CloseTag(n))
      + Trail(n, indent)]) == Ser(cfg, n, indent, isRoot)
  {
    SerLeaf(cfg, n, indent, isRoot);
    var x := Lead(cfg, n, indent, isRoot)
      + (if SelfCloses(n) then "/>" else ">" + TextPart(cfg, n, indent) + CloseTag(n))
      + Trail(n, indent);
    assert Flatten([x]) == Flatten([]) + x;
  }

  lemma InnerWrite(cfg: Config, n: Node, indent: string, isRoot: bool, body: seq<string>)
    requires NamesNonEmpty(n.attrs) && |n.children| > 0
    requires forall i :: 0 <= i < |n.children| ==> WellNamed(n.children[i])
    requires Flatten(body) == SerChildren(cfg, n.children, ChildIndent(cfg, indent, isRoot))
    requires |body| == WritesAll(n.children)
    ensures WellNamed(n)
    ensures Flatten([Lead(cfg, n, indent, isRoot) + ">" + TextPart(cfg, n, indent) + "\n"] + body
      + [indent + CloseTag(n) + Trail(n, indent)]) == Ser(cfg, n, indent, isRoot)
    ensures |[Lead(cfg, n, indent, isRoot) + ">" + TextPart(cfg, n, indent) + "\n"] + body
      + [indent + CloseTag(n) + Trail(n, indent)]| == Writes(n)
  {
    FlattenAround(Lead(cfg, n, indent, isRoot) + ">" + TextPart(cfg, n, indent) + "\n", body,
      indent + CloseTag(n) + Trail(n, indent));
    SerInner(cfg, n, indent, isRoot);
  }

  lemma FlattenAround(head: string, body: seq<string>, foot: string)
    ensures Flatten([head] + body + [foot]) == head + Flatten(body) + foot
  {
    FlattenAppend([head], body);
    FlattenAppend([head] + body, [foot]);
    assert Flatten([head]) == Flatten([]) + head;
    assert Flatten([foot]) == Flatten([]) + foot;
  }

  /** The loop over the children: each child in order, written by a nested
      call one indent step deeper. */
  method WriteChildren(cfg: Config, cs: seq<Node>, indent: string) returns (ok: bool, chunks: seq<string>)
    ensures ok <==> forall i :: 0 <= i < |cs| ==> WellNamed(cs[i])
    ensures ok ==> Flatten(chunks) == SerChildren(cfg, cs, indent)
    ensures ok ==> |chunks| == WritesAll(cs)
    decreases cs, 0
  {
    chunks := [];
    var i := 0;
    while i < |cs|
      invariant 0 <= i <= |cs|
      invariant forall j :: 0 <= j < i ==> WellNamed(cs[j])
      invariant Flatten(chunks) == SerChildren(cfg, cs[..i], indent)
      invariant |chunks| == WritesAll(cs[..i])
    {
      var childOk, childChunks := WriteXml(cfg, cs[i], indent, false);
      if !childOk {
        return false, chunks;
      }
      FlattenAppend(chunks, childChunks);
      SerChildrenSnoc(cfg, cs, i, indent);
      chunks := chunks + childChunks;
      i := i + 1;
    }
    assert cs[..i] == cs;
    ok := true;
  }
}
